=== FILE: README.md ===
# FinEdge API core in Dafny

FinEdge is a personal-finance REST API built with Express, zod and Mongoose:
users sign up and sign in (bcrypt passwords, JWT tokens), record income and
expense transactions, ask for an income/expense summary, and keep monthly
budgets. This project models the request-handling core of that API and
proves properties of the model:

- **Values** (`values.dfy`): JSON-like JavaScript values, truthiness, object
  spread and `Number.isInteger`. **Strings** (`strings.dfy`): `startsWith`,
  `split` and `join`, with their round trips.
- **Request schemas** (`zod.dfy`, `transaction_validation.dfy`,
  `budget_validation.dfy`, `user_validation.dfy`): a small interpreter of the
  zod constructs the schemas use (`safeParse`, unknown keys stripped, for
  every failing field a type issue or one issue per failed check, the
  non-empty-update refinement), and for every
  schema a lemma that says in plain predicates which inputs it accepts.
- **Document models** (`mongoose.dfy`, `transaction_model.dfy`,
  `budget_model.dfy`): Mongoose validators in their order (required, type,
  min, max, enum), update validators that look only at the updated paths, the
  `Date.now` default, and the same "accepts exactly" lemmas for both models.
- **Collections** (`store.dfy`, `users.dfy`): a `Collection` class holding the
  documents in natural order, with `create` (strict mode, default,
  timestamps, validation, unique `_id`), `find` with an equality filter,
  `sort` as a stable sort, `findById`, `findByIdAndUpdate` (validators run,
  new document answered) and `findByIdAndDelete`; the user collection adds
  the unique email index. Every operation keeps the collection invariant
  (unique ids, every document valid).
- **Services** (`transaction_services.dfy`, `budget_services.dfy`,
  `user_services.dfy`): the service functions as methods over a collection,
  including the summary loop proved equal to its specification.
- **Middleware** (`validator.dfy`, `auth.dfy`, `error_handler.dfy`,
  `errors.dfy`, `jwt.dfy`, `http.dfy`): request validation, Bearer
  authentication and the error handler's classification chain and JSON
  envelope.
- **Controllers** (`transaction_controller.dfy`, `budget_controller.dfy`,
  `user_controller.dfy`): each controller's response or forwarded error.
- **Cache** (`cache.dfy`): the in-memory TTL cache as a class with lemmas
  about expiry.

Clocks, bcrypt, the JWT library and `new Date(...)` are parameters: a clock
reading `now` in milliseconds, a `Crypto` pair of functions, a `Tokens` pair
of functions, and a date parser `parseDate`. New document ids are
parameters too.

The proofs make the following behaviours of the code explicit:

- A transaction body whose `date` is the empty string passes the request
  schema, is not converted (it is falsy), and then fails the model's
  `required` date, so the create answers 400 "Database validation error"
  instead of taking the default date (`TransactionController.EmptyDateFailsInModel`).
- Registering an email that is already taken throws a plain `Error`, which
  the error handler answers with 500 "Internal server error"
  (`UserController.DuplicateSignupIs500`).
- In production the two sign-in failures (unknown email, wrong password)
  get identical answers; in development the stack trace tells them apart.
- The create-budget schema demands a `user` of length 24 in the body, but the
  controller replaces it with the authenticated user's id. A token whose
  payload has no `id` sets no owner, and the budget listing then holds every
  user's budgets (`BudgetController.TokenWithoutIdListsAll`).
- Budget lookup, update and delete go by id alone and do not check the owner.
- The transaction services never touch the cache, although the service tests
  expect `cache.get`, `cache.set` and `cache.clear` calls; the model follows
  the code, so no service operation reads or clears the cache.
- String lengths in the schemas (`min(8)`, `length(24)`) count UTF-16 code units, as JavaScript does: a password of four emoji has length 8 and is accepted (`UserValidation.FourEmojiPassword`).
- The model accepts budgets (year 1999, month 1.5) that the request schema
  refuses (`BudgetModel.ModelAdmitsWhatSchemaRejects`). It also stores
  transactions with a zero amount, which the request schema refuses
  (`TransactionModel.ZeroAmountIsStorable`).

## Model

| member | source | states |
|---|---|---|
| Strings.Split | src/middleware/auth.js:12 | `split(c)` gives at least one piece and no piece contains the separator |
| Strings.JoinSplit | src/middleware/auth.js:12 | joining the pieces of a split with the same separator restores the string |
| Strings.SplitJoin | src/middleware/errorHandler.js:37 | splitting a dot-join of separator-free pieces gives the pieces back |
| Zod.IssueObjects | src/middleware/validator.js:9 | `result.error.errors` lists one issue object per issue, in order |
| Strings.Utf16Length | src/validation/userValidation.js:8 | a string's JavaScript length counts UTF-16 code units, one or two per character, so it equals the character count exactly when no character is astral |
| Zod.CheckIssues | src/validation/transactionValidation.js:6-10 | a present value yields no issue exactly when its check admits it, with `length` and `min` measured in UTF-16 units as JavaScript does, and every issue carries the field's path |
| Zod.OneFieldIssues | src/validation/transactionValidation.js:5-12 | every issue of one field is reported under that field's path |
| Zod.FieldIssues | src/validation/transactionValidation.js:5-12 | every issue of an object's fields is reported under the object's path plus one key |
| Zod.FieldIssuesInclude | src/validation/transactionValidation.js:5-12 | no issue of any field is lost from the object's issue list |
| Zod.FieldIssuesEmpty | src/validation/transactionValidation.js:5-12 | an object has no field issue exactly when every field is acceptable |
| Zod.Known | src/middleware/validator.js:12 | the parsed object keeps exactly the declared keys present in the input, with their values, and strips the rest |
| Zod.ParseShape | src/validation/transactionValidation.js:24-34 | a failed parse reports at least one issue; a successful one is the input object with unknown keys stripped |
| Zod.ParseShapeMeaning | src/validation/transactionValidation.js:24-34 | a facet parses exactly when it is an object whose fields are all acceptable and, with the refinement, at least one declared key is present |
| Zod.SafeParse | src/middleware/validator.js:7 | success holds only the schema's facet, parsed from an object input; failure holds at least one issue, each under that facet |
| Zod.SafeParseMeaning | src/middleware/validator.js:7-10 | `safeParse` succeeds exactly when the facet is an object the shape accepts |
| TransactionValidation.CreateTransactionSchemaMeaning | src/validation/transactionValidation.js:4-13 | the create schema accepts exactly a body with a user of JavaScript length 24, a known type, a non-empty category, a positive amount and optional text date and note |
| TransactionValidation.UpdateTransactionSchemaMeaning | src/validation/transactionValidation.js:23-35 | the update schema accepts exactly a body whose present fields meet the create bounds and that names at least one of them |
| TransactionValidation.TransactionIdSchemaMeaning | src/validation/transactionValidation.js:16-20 | the id schema accepts exactly params holding a text id of JavaScript length 24 |
| TransactionValidation.UpdateWithoutFieldsRejected | src/validation/transactionValidation.js:32-34 | an update body with only unknown keys fails with the single refinement issue |
| TransactionValidation.ZeroAmountRejected | src/validation/transactionValidation.js:9 | an amount of 0 is reported with "Amount must be positive" |
| BudgetValidation.CreateBudgetSchemaMeaning | src/validation/budgetValidation.js:4-12 | the create schema accepts exactly an integer month 1..12, an integer year from 2000, non-negative goals and a user of JavaScript length 24 |
| BudgetValidation.UpdateBudgetSchemaMeaning | src/validation/budgetValidation.js:22-33 | the update schema accepts exactly a body whose present fields meet the create bounds and that names at least one of them |
| BudgetValidation.BudgetIdSchemaMeaning | src/validation/budgetValidation.js:15-19 | the id schema accepts exactly params holding a text id of JavaScript length 24 |
| BudgetValidation.Month13Rejected | src/validation/budgetValidation.js:7 | month 13 makes the create schema fail with a too-big issue on the month |
| BudgetValidation.EmptyUpdateRejected | src/validation/budgetValidation.js:30-32 | an empty update body fails with the refinement's message |
| UserValidation.CreateUserSchemaMeaning | src/validation/userValidation.js:4-10 | the sign-up schema accepts exactly a non-empty name, an email-shaped address and a password of at least 8 UTF-16 units |
| UserValidation.SigninUserSchemaMeaning | src/validation/userValidation.js:12-17 | the sign-in schema accepts exactly an email-shaped address and a password of at least 8 UTF-16 units |
| UserValidation.GetUserByIdSchemaMeaning | src/validation/userValidation.js:20-24 | the user id schema accepts exactly params holding a text id of JavaScript length 24 |
| UserValidation.SignupBodySignsIn | src/validation/userValidation.js:4-17 | every input the sign-up schema accepts is accepted by the sign-in schema |
| UserValidation.BadEmailIsNotEmail | src/validation/userValidation.js:7 | "bad-email" is not an email address |
| UserValidation.FourEmojiPassword | src/validation/userValidation.js:8 | four emoji are four characters but eight UTF-16 units, so they meet the password's minimum of 8 |
| UserValidation.TwoLabelAddressIsEmail | src/validation/userValidation.js:7 | any `local@host.tld` address with non-empty parts free of '@', '.' and spaces passes the email check |
| UserValidation.AnnEmailIsEmail | src/validation/userValidation.js:7 | "ann@x.com" is an email address |
| UserValidation.BadSignupRejected | src/validation/userValidation.js:4-10 | an empty name, a malformed email and a short password give exactly three issues, in field order, with the schema's messages |
| UserValidation.ValidSignupUnchanged | src/validation/userValidation.js:4-10 | a valid sign-up body with no extra key parses to itself |
| UserValidation.GoodSignupAccepted | src/validation/userValidation.js:4-10 | a concrete well-formed sign-up body is accepted as is |
| Mongoose.PathIssues | src/models/transactionModel.js:5-31 | a path reports at most one error, the first failing validator, under its own path |
| Mongoose.PathIssuesMeaning | src/models/transactionModel.js:5-31 | a path reports no error exactly when its value is absent and not required, or has the type and meets min, max and enum |
| Mongoose.DocIssues | src/models/budgetModel.js:3-32 | a document reports at most one error per schema path |
| Mongoose.UpdateIssues | src/services/transactionServices.js:20-23 | update validators report errors only for paths the update sets |
| Mongoose.DocIssuesEmpty | src/models/budgetModel.js:3-32 | a document is valid exactly when every path admits its value |
| Mongoose.UpdateIssuesEmpty | src/services/transactionServices.js:20-23 | an update passes exactly when every path it sets admits the new value |
| Mongoose.Project | src/models/transactionModel.js:3-34 | strict mode keeps exactly the declared paths of the data, with their values |
| Mongoose.UpdateKeepsValid | src/services/transactionServices.js:19-26 | a valid document updated with values the update validators accept, plus non-schema fields, stays valid |
| Errors.NewError | src/controllers/transactionController.js:41 | `new Error(message)` has name "Error", the message, and no status |
| Errors.StatusError | src/controllers/transactionController.js:41-42 | a controller error carries its message and the status it was given |
| Errors.ValidationError | src/middleware/errorHandler.js:58-63 | Mongoose's validation error is named "ValidationError" and carries the per-path errors |
| Errors.DuplicateKeyError | src/middleware/errorHandler.js:81-87 | a duplicate-key error carries code 11000 and the duplicate key value, and nothing earlier in the handler's chain |
| TransactionModel.WithDefaults | src/models/transactionModel.js:24-28 | a document without a date gets the clock reading; every other field is kept |
| TransactionModel.TransactionRulesMeaning | src/models/transactionModel.js:3-34 | a transaction document is valid exactly when it has a user, a type of income or expense, a non-empty category, a non-negative amount, a date and text or no note |
| TransactionModel.ZeroAmountIsStorable | src/models/transactionModel.js:19-23 | the model stores a zero amount that the request schema refuses |
| TransactionModel.UnknownTypeIsEnumError | src/models/transactionModel.js:10-14 | a type outside income/expense is an enum error on the type path |
| BudgetModel.BudgetRulesMeaning | src/models/budgetModel.js:3-32 | a budget document is valid exactly when it has a user, a month 1..12, a year and non-negative goals |
| BudgetModel.CreateBodyIsStorable | src/validation/budgetValidation.js:4-12 | every body the create schema accepts is a valid budget document |
| BudgetModel.ModelAdmitsWhatSchemaRejects | src/models/budgetModel.js:10-19 | a budget with year 1999 and month 1.5 is valid to the model but refused by the schema |
| BudgetModel.Month13IsMaxError | src/models/budgetModel.js:10-15 | month 13 is a max error on the month path |
| Cache.ExpiryFor | src/utils/cache.js:13 | only a zero time-to-live means "never expires"; otherwise expiry is now plus the time-to-live |
| Cache.Lookup | src/utils/cache.js:17-27 | `get` answers a value exactly when the key is present and not expired, and then the stored value |
| Cache.AfterGet | src/utils/cache.js:17-27 | `get` removes the key exactly when its entry is expired and touches no other key |
| Cache.InMemoryCache.constructor | src/utils/cache.js:4-6 | a new cache is empty |
| Cache.InMemoryCache.Set | src/utils/cache.js:12-15 | the key now holds the value with its expiry; other keys are unchanged |
| Cache.InMemoryCache.Get | src/utils/cache.js:17-27 | answers `Lookup` and leaves the store as `AfterGet` |
| Cache.InMemoryCache.Delete | src/utils/cache.js:29-31 | the key is removed and nothing else |
| Cache.InMemoryCache.Clear | src/utils/cache.js:33-35 | the store is empty |
| Cache.SetThenLookup | src/utils/cache.js:12-27 | a value set with a time-to-live is read back until, and not after, its expiry |
| Cache.DefaultTtlIsOneMinute | src/utils/cache.js:12 | with the default time-to-live the value lives exactly 60000 ms |
| Cache.NegativeTtlIsStaleAtOnce | src/utils/cache.js:13 | a negative time-to-live makes the entry stale immediately |
| Cache.ExpiryIsPermanent | src/utils/cache.js:8-10 | an entry expired at one time is expired at every later time |
| Cache.GetIsIdempotent | src/utils/cache.js:17-27 | reading twice at the same time answers the same and leaves the same store |
| Cache.GetIsUnobservable | src/utils/cache.js:17-27 | a read changes no key's answer at the same or any later time |
| Cache.OtherKeysUntouched | src/utils/cache.js:12-31 | setting or deleting a key leaves every other key's answer unchanged |
| Cache.DeleteForgets | src/utils/cache.js:29-31 | after delete the key answers nothing |
| Store.ToObject | src/services/transactionServices.js:5 | `toObject()` holds the stored fields and the id under `_id` |
| Store.ToObjects | src/services/transactionServices.js:10 | `map(toObject)` keeps length and order |
| Store.IndexOfId | src/services/transactionServices.js:14 | the first position holding the id, or none exactly when no document has it |
| Store.FindId | src/services/transactionServices.js:14 | `findById` answers a document exactly when one has that id, and then one with that id |
| Store.Strict | src/models/transactionModel.js:3-34 | only the schema's declared paths of the data are kept, with their values |
| Store.Stamp | src/models/transactionModel.js:33 | `timestamps` adds createdAt and updatedAt at the clock reading, plus the version key, and keeps every other field |
| Store.Prepare | src/services/transactionServices.js:4 | a created document holds the declared paths of the data, the date default and the timestamps |
| Store.InsertResult | src/services/transactionServices.js:3-6 | `create` succeeds exactly when the prepared document is valid and the id is new; otherwise a ValidationError or a duplicate-key error |
| Store.UpdateResult | src/services/transactionServices.js:19-26 | the update fails exactly when an update validator fails; otherwise it answers null exactly when the id is unknown |
| Store.AfterUpdate | src/services/transactionServices.js:19-26 | an update never changes the number of documents and leaves every document with another id as it was |
| Store.AfterDelete | src/services/transactionServices.js:28-31 | a delete removes one document when the id is known and nothing otherwise |
| Store.Select | src/services/transactionServices.js:9 | `find(filter)` holds exactly the stored documents that match the filter |
| Store.SelectAppend | src/services/transactionServices.js:9 | a document added at the end is selected at the end, when it matches |
| Store.SelectAll | src/services/transactionServices.js:8 | the empty filter selects the whole collection, in order |
| Store.InsertSorted | src/services/budgetServices.js:9 | inserting into a sorted list keeps it sorted and adds exactly that document |
| Store.SortNewestFirst | src/services/budgetServices.js:9 | the sort answers the same documents ordered by descending sort key |
| Store.InsertKeepsOk | src/services/transactionServices.js:3-6 | a create keeps ids unique and every document valid |
| Store.UpdateKeepsOk | src/services/transactionServices.js:19-26 | an update keeps ids unique and every document valid |
| Store.DeleteKeepsOk | src/services/transactionServices.js:28-31 | a delete keeps ids unique and every document valid |
| Store.InsertThenFind | src/services/transactionServices.js:3-17 | a created document is found by its id, as stored |
| Store.DeleteIsOnce | src/services/transactionServices.js:28-31 | after deleting an id no document has it |
| Store.UpdateSetsFields | src/services/transactionServices.js:19-26 | an accepted update sets each schema path it names and keeps each other schema path |
| Store.Collection.constructor | src/models/transactionModel.js:36 | a new collection of a kind is empty and valid |
| Store.Collection.FindById | src/services/transactionServices.js:14 | the linear scan answers `FindId` |
| Store.Collection.Find | src/services/transactionServices.js:34 | the loop answers `Select` |
| Store.Collection.Create | src/services/transactionServices.js:4 | answers `InsertResult`, appends on success, and keeps the invariant |
| Store.Collection.FindByIdAndUpdate | src/services/transactionServices.js:20-23 | answers `UpdateResult`, replaces the document on success, and keeps the invariant |
| Store.Collection.FindByIdAndDelete | src/services/transactionServices.js:29 | answers the removed document and keeps the invariant |
| Users.EmailFilter | src/services/userServices.js:8 | `{ email: data.email }` is empty when the email is undefined |
| Users.FindOne | src/services/userServices.js:8 | `findOne` answers a matching document, or none exactly when none matches |
| Users.InsertUserResult | src/services/userServices.js:13 | a user is stored exactly when its id and email are both new; otherwise a duplicate-key error |
| Users.InsertUserKeepsOk | src/services/userServices.js:13 | storing a user keeps ids and emails unique |
| Users.UserStore.constructor | src/services/userServices.js:1 | a new user collection is empty and valid |
| Users.UserStore.Create | src/services/userServices.js:13 | answers `InsertUserResult`, appends on success, and keeps the invariant |
| Jwt.SecretFrom | src/services/userServices.js:23 | an unset or empty JWT_SECRET falls back to the default secret |
| TransactionServices.SummaryOf | src/services/transactionServices.js:46-50 | net is income minus expense |
| TransactionServices.CreateTransaction | src/services/transactionServices.js:3-6 | answers the stored record or the create error, and the collection as `AfterInsert` |
| TransactionServices.GetAllTransactions | src/services/transactionServices.js:8-11 | the matching records, sorted newest first |
| TransactionServices.GetTransactionById | src/services/transactionServices.js:13-17 | null exactly when no record has the id; otherwise that record |
| TransactionServices.UpdateTransaction | src/services/transactionServices.js:19-26 | the updated record, null when absent, or the validation error; the collection as `AfterUpdate` |
| TransactionServices.DeleteTransaction | src/services/transactionServices.js:28-31 | true exactly when a record with the id existed; it is removed |
| TransactionServices.GetSummary | src/services/transactionServices.js:33-51 | the loop answers the summary of the matching transactions |
| TransactionServices.TotalNonNegative | src/services/transactionServices.js:38-44 | over stored transactions both totals are non-negative |
| TransactionServices.TotalConcat | src/services/transactionServices.js:38-44 | totals add up over concatenation |
| TransactionServices.OtherTypeIgnored | src/services/transactionServices.js:39-43 | a transaction of neither type changes no total |
| TransactionServices.SummaryOfAll | src/services/transactionServices.js:33-34 | the default filter sums every transaction; none sums to zero |
| TransactionServices.SummaryExample | src/services/transactionServices.js:33-51 | income 200 and expense 50 give net 150 |
| TransactionServices.SecondDeleteFindsNothing | src/services/transactionServices.js:28-31 | after a delete the id is gone, so a second delete finds nothing |
| BudgetServices.CreateBudget | src/services/budgetServices.js:3-6 | answers the stored record or the create error, and the collection as `AfterInsert` |
| BudgetServices.GetAllBudgets | src/services/budgetServices.js:8-11 | the matching records sorted by year, then month, descending |
| BudgetServices.GetBudgetById | src/services/budgetServices.js:13-17 | null exactly when no record has the id; otherwise that record |
| BudgetServices.UpdateBudget | src/services/budgetServices.js:19-26 | the updated record, null when absent, or the validation error |
| BudgetServices.DeleteBudget | src/services/budgetServices.js:28-31 | true exactly when a record with the id existed; it is removed |
| BudgetServices.ListingMeaning | src/services/budgetServices.js:8-11 | the listing holds exactly the matching budgets, each once, by year and then month descending |
| BudgetServices.ListAllIsEverything | src/services/budgetServices.js:8 | the empty filter lists every budget |
| UserServices.WithHashedPassword | src/services/userServices.js:12-13 | the password is replaced by its hash with 10 salt rounds; every other field is kept |
| UserServices.CreateUserResult | src/services/userServices.js:7-15 | a taken email fails with "User with this email already exists"; an email nobody holds goes on to the insert of the data with the password hashed; a success stores the user with the hashed password |
| UserServices.CreateUserSucceedsOnNewEmail | src/services/userServices.js:7-15 | for a text email, sign-up succeeds exactly when no user holds that email and the id is free, and then stores the user with the hashed password |
| UserServices.SigninResult | src/services/userServices.js:17-28 | sign-in succeeds exactly when a user has the email and the password matches its hash |
| UserServices.CreateUser | src/services/userServices.js:7-15 | answers the stored user or the error, appending exactly on success |
| UserServices.SigninUser | src/services/userServices.js:17-28 | answers `SigninResult` |
| UserServices.GetUserById | src/services/userServices.js:30-34 | null exactly when no user has the id; otherwise that user |
| UserServices.DuplicateEmailRejected | src/services/userServices.js:8-11 | registering a taken email fails with the duplicate message |
| UserServices.StoresHashedPassword | src/services/userServices.js:12-13 | the stored password is the hash of the given one |
| UserServices.UnknownEmailFails | src/services/userServices.js:18-21 | an unknown email fails with "User with this email does not exist" |
| UserServices.WrongPasswordFails | src/services/userServices.js:22-26 | a wrong password fails with "Invalid password" |
| UserServices.SigninAnswersUserAndToken | src/services/userServices.js:22-27 | a correct sign-in answers the user's record and a token signed over its id |
| UserServices.OnlyMatch | src/services/userServices.js:18 | with unique emails `findOne` answers the user holding that email |
| UserServices.SignupThenSignin | src/services/userServices.js:7-28 | sign-up then sign-in with the same credentials succeeds as the new user |
| Http.IdParam | src/controllers/transactionController.js:37 | the id is taken exactly when params holds a text id |
| Http.CreatedOr | src/controllers/transactionController.js:19-23 | 201 with the record exactly on success, otherwise the error is forwarded |
| Http.FoundOr | src/controllers/transactionController.js:38-45 | 200 with the record when found, otherwise a 404 error with the message |
| Http.UpdatedOr | src/controllers/transactionController.js:58-67 | an update's error is forwarded; otherwise as a lookup |
| Http.DeletedOr | src/controllers/transactionController.js:73-79 | 204 with no body exactly when something was deleted, otherwise a 404 error |
| Http.Listing | src/controllers/transactionController.js:29 | the JSON array holds the records in order |
| Validator.RequestData | src/middleware/validator.js:6 | the parsed input holds the source facet, params and query, and nothing else |
| Validator.ValidateFacets | src/middleware/validator.js:3-20 | 400 with the issues exactly when parsing fails, facets unchanged; otherwise `next()` with the schema's facet replaced by its parsed value |
| Validator.Validate | src/middleware/validator.js:3-20 | the request's outcome and facets are those of `ValidateFacets` |
| Validator.ValidatedTransactionBody | src/middleware/validator.js:12 | after the create-transaction validator passes, the body is a well-formed create body |
| Validator.ValidatedBudgetBody | src/middleware/validator.js:12 | after the create-budget validator passes, the body is a well-formed create body |
| Validator.RejectionNamesFacet | src/middleware/validator.js:8-9 | a rejection is a 400 with at least one issue, each about the schema's facet |
| ErrorHandler.Handle | src/middleware/errorHandler.js:3-126 | never success; echoes path, method and timestamp; the stack only outside production; an explicit status wins; otherwise 400, 401, 409 or 500, and a 500 says only "Internal server error" |
| ErrorHandler.ExplicitStatusWins | src/middleware/errorHandler.js:19-32 | an error with a status is answered with it, its own message, type and details |
| ErrorHandler.ZodErrorIs400 | src/middleware/errorHandler.js:35-55 | a zod error is a 400 "Validation error" with one field error per issue |
| ErrorHandler.FieldErrorPathRecoverable | src/middleware/errorHandler.js:37 | a field error's dotted path splits back into the issue path |
| ErrorHandler.DbValidationIs400 | src/middleware/errorHandler.js:58-78 | a Mongoose ValidationError is a 400 "Database validation error" with one field error per failed path |
| ErrorHandler.DuplicateKeyIs409 | src/middleware/errorHandler.js:81-95 | a duplicate-key error is a 409 naming the duplicate fields |
| ErrorHandler.JwtErrorIs401 | src/middleware/errorHandler.js:98-111 | a JWT library error is a 401 of type AuthError |
| ErrorHandler.UnknownErrorIs500 | src/middleware/errorHandler.js:114-125 | anything else is a 500 "Internal server error" of type InternalServerError |
| ErrorHandler.ProductionHidesStack | src/middleware/errorHandler.js:27-29 | in production no answer carries a stack |
| ErrorHandler.NotFoundIs404 | src/middleware/errorHandler.js:19-32 | a controller's not-found error is a 404 with its own message |
| Auth.Decide | src/middleware/auth.js:3-24 | a missing or non-Bearer header is "Authentication required"; every refusal is 401; success means the token verified and the user is its payload's id |
| Auth.Authenticate | src/middleware/auth.js:3-24 | `next` is called once: with the refusal and the request unchanged, or with no error and `req.user` set |
| Auth.TokenIsSecondPiece | src/middleware/auth.js:12 | the token is the text after "Bearer " up to the next space |
| Auth.LowercaseSchemeRefused | src/middleware/auth.js:6-10 | "bearer " is refused as no credential |
| Auth.BadTokenRefused | src/middleware/auth.js:19-23 | a token that does not verify is refused with "Invalid or expired token" |
| Auth.SignedTokenAuthenticates | src/middleware/auth.js:14-18 | a token signed over `{ id }` with the same secret authenticates as that id |
| TransactionController.WithParsedDate | src/controllers/transactionController.js:16-18 | a truthy date is replaced by the parsed date; every other field is kept |
| TransactionController.CreateTransactionController | src/controllers/transactionController.js:13-24 | the collection afterwards is the insert of the body with its date converted; the answer is 201 with the stored record, or the create error forwarded |
| TransactionController.GetAllTransactionsController | src/controllers/transactionController.js:26-33 | every transaction, newest first, unfiltered |
| TransactionController.GetTransactionByIdController | src/controllers/transactionController.js:35-49 | 200 exactly when a record has the id, and the answer is that record; otherwise a 404 "Transaction not found" error |
| TransactionController.UpdateTransactionController | src/controllers/transactionController.js:51-68 | the date-converted update is applied; the answer is the updated record, a 404 error or the validation error |
| TransactionController.DeleteTransactionController | src/controllers/transactionController.js:70-83 | 204 exactly when a record with the id existed; otherwise a 404 error |
| TransactionController.GetSummaryController | src/controllers/transactionController.js:85-92 | the summary of every transaction |
| TransactionController.ValidatedBodyIsStored | src/controllers/transactionController.js:13-19 | a body the create schema accepts, once its date is converted, is a valid transaction unless the date is empty text |
| TransactionController.EmptyDateFailsInModel | src/controllers/transactionController.js:16-18 | an empty date passes the schema but makes the stored document invalid |
| BudgetController.AttachUser | src/controllers/budgetController.js:12-14 | a truthy authenticated id becomes the data's user; otherwise the data is unchanged |
| BudgetController.CreateBudgetController | src/controllers/budgetController.js:9-20 | the owner-stamped body is created; 201 with the record or the error forwarded |
| BudgetController.GetAllBudgetsController | src/controllers/budgetController.js:22-33 | the budgets matching the owner filter, by year and month descending |
| BudgetController.GetBudgetByIdController | src/controllers/budgetController.js:35-48 | 200 exactly when a budget has the id, whoever asks, and the answer is that budget; otherwise a 404 "Budget not found" error |
| BudgetController.UpdateBudgetController | src/controllers/budgetController.js:50-64 | the update is applied; the answer is the updated record, a 404 error or the validation error |
| BudgetController.DeleteBudgetController | src/controllers/budgetController.js:66-79 | 204 exactly when a budget with the id existed; otherwise a 404 error |
| BudgetController.CreatedBudgetIsOwned | src/controllers/budgetController.js:11-15 | a schema-valid body becomes a valid budget owned by the signed-in user, whatever user the body named |
| BudgetController.ListingIsOwnBudgets | src/controllers/budgetController.js:24-28 | a signed-in user's listing holds exactly that user's budgets |
| BudgetController.TokenWithoutIdListsAll | src/controllers/budgetController.js:24-28 | a user without an id sets no filter, and every budget is listed |
| UserController.ParseFacet | src/controllers/userController.js:6-12 | success is the stripped facet; failure is a 400 "Validation failed" error whose details are the issues |
| UserController.CreateUserController | src/controllers/userController.js:4-20 | an invalid body forwards the 400 error and stores nothing; otherwise 201 with only a message, or the service error |
| UserController.SigninUserController | src/controllers/userController.js:22-36 | an invalid body forwards the 400 error; otherwise 200 with `{ user, token }`, or the service error |
| UserController.GetUserByIdController | src/controllers/userController.js:38-57 | invalid params forward the 400 error; otherwise 200 exactly when a user has the id, and the answer is that user; else a 404 "User not found" error |
| UserController.ParsedUserIdIsText | src/controllers/userController.js:47 | the id passed to the lookup is the text of JavaScript length 24 the schema checked |
| UserController.BadSignupAnswer | src/controllers/userController.js:6-11 | a bad sign-up ends as a 400 "Validation failed" answer listing all three issues |
| UserController.DuplicateSignupIs500 | src/services/userServices.js:9-11 | a duplicate sign-up ends as a 500 "Internal server error" answer |
| UserController.SigninFailuresLookAlike | src/services/userServices.js:19-26 | in production an unknown email and a wrong password get identical answers |
| UserController.SigninFailuresDifferInDevelopment | src/middleware/errorHandler.js:121-123 | outside production the stack trace tells the two sign-in failures apart |
| UserController.SigninTokenAuthenticates | src/services/userServices.js:23 | the token a sign-in answers authenticates as the user's `_id` |

## Left out

- Type casting by Mongoose (text to number, text to ObjectId, CastError) is not modelled. A value must already have its path's type; any text is an ObjectId.
- Mongoose's default messages for the `min`, `max`, `enum` and cast validators are left empty. The `required` message is modelled.
- zod's default messages are left empty except "Required". The email check is an approximation of zod's pattern: one `@`, a non-empty local part, no space, and a domain of at least two non-empty dot-separated labels.
- `new Date(text)` is a total parameter `parseDate`: an Invalid Date is not modelled.
- Numbers are exact reals: floating-point rounding, NaN and Infinity are not modelled.
- JSON serialisation (dates as ISO text, `res.json`) is not modelled. Answers carry values.
- The user schema `src/models/userModel.js` is not part of this model. The user collection holds what `createUser` stores, with unique `_id` and `email` indexes; the schema's own validators are not modelled.
- ObjectId generation: new ids are parameters of the create methods.
- Mongo's order between documents with equal sort keys is unspecified. The model sorts stably, in natural order.
- Store.UpdateResult: update validators are checked the way document validators check a path, so setting a required path to null or "" is refused. Mongoose runs `required` on updates only for `$unset`.
- The `__v` version key is set to 0 on create and never incremented.
- Concurrency is not modelled: `createUser`'s check-then-insert race, and Express's asynchronous handlers, which run one at a time here.
- bcrypt and the JWT library are function parameters; their argument errors and the `jwt.sign` options are not modelled.
- Console logging in the error handler and the controllers is not modelled.
- Mongoose.DocIssues: the errors are listed in schema order. Mongoose gathers them by path state (missing required paths first, then paths in the order they were set), so the order of `fieldErrors` in a 400 answer may differ.
- Zod.IssueObjects: each issue object carries only `path`, `code` and `message`. zod's code-specific fields (`expected`/`received`, `minimum`/`maximum`/`inclusive`/`exact`/`type`, `validation`, `options`) are left out. The development answer's `errors` therefore lists fewer fields per issue.
- Errors.ValidationError: the message is "<model> validation failed". Mongoose appends a ": <path>: <message>, ..." list, which is left out. The list reaches clients only through the development stack.
- Errors.DuplicateKeyError: the message is shortened to "E11000 duplicate key error". The server's collection, index and `dup key` text are left out.
- Errors.StackHead: a stack is modelled as its first line only, "<name>: <message>". The call frames that follow it are left out.
- Jwt.RoundTrips: a signed token is only assumed to verify to an object whose `id` is the signed id. The other claims the library adds (`iat`) are not modelled.
- The application wiring `src/app.js`, the routes, the rate limiter and the `GET /users` greeting are not part of this model. Route order appears only in the lemmas that chain a validator, a controller and the error handler.
- Validator.Validate: the `catch` branch is not modelled, because `safeParse` does not throw.
- The cache is used by no service in this code, so it is modelled on its own.
- Controllers take the id from `req.params` only when it is text. Other shapes are answered as not found; the id validators rule them out.

=== FILE: auth.dfy ===
/**
 * The authentication middleware: a bearer token in the Authorization header
 * (section 2.1 of RFC 6750) is verified, and the payload's `id` becomes
 * `req.user`. Token verification is a function the model does not look inside.
 */
module Auth {
  import opened Wrappers
  import opened Values
  import opened Strings
  import opened Errors
  import opened Jwt
  import opened Http

  const Scheme := "Bearer "
  const AuthRequiredMessage := "Authentication required"
  const InvalidTokenMessage := "Invalid or expired token"

  /** `authHeader.split(' ')[1]`; the prefix check guarantees a second piece. */
  function BearerToken(header: string): string
    requires StartsWith(header, Scheme)
  {
    var rest := header[|Scheme|..];
    assert header == "Bearer" + [' '] + rest;
    SplitAtFirst("Bearer", ' ', rest);
    Split(header, ' ')[1]
  }

  /** `{ id: payload.id }`: a payload that is not an object has no `id`. */
  function UserOf(payload: Value): AuthUser {
    if payload.Obj? then AuthUser(Get(payload.fields, "id")) else AuthUser(None)
  }

  /** The middleware's decision for a header: the user to attach, or the error for `next`. */
  function Decide(header: Option<string>, tokens: Tokens, secret: string): (r: Result<AuthUser, Error>)
    ensures r.Failure? ==> r.error.statusCode == Some(401)
    ensures header.None? || !StartsWith(header.value, Scheme) ==> r == Failure(StatusError(AuthRequiredMessage, 401))
    ensures r.Success? ==>
      && header.Some? && StartsWith(header.value, Scheme)
      && tokens.verify(BearerToken(header.value), secret).Some?
      && r.value == UserOf(tokens.verify(BearerToken(header.value), secret).value)
  {
    if header.None? || header.value == "" || !StartsWith(header.value, Scheme) then
      Failure(StatusError(AuthRequiredMessage, 401))
    else
      match tokens.verify(BearerToken(header.value), secret)
      case None => Failure(StatusError(InvalidTokenMessage, 401))
      case Some(payload) => Success(UserOf(payload))
  }

  /** `auth(req, res, next)`: `next` is called once, with an error or after `req.user` is set. */
  method Authenticate(req: Request, tokens: Tokens, secret: string) returns (o: Outcome)
    modifies req`user
    ensures o.Next?
    ensures match Decide(req.authorization, tokens, secret)
      case Failure(e) => o.err == Some(e) && req.user == old(req.user)
      case Success(u) => o.err.None? && req.user == Some(u)
  {
    var header := req.authorization;
    if header.None? || header.value == "" || !StartsWith(header.value, Scheme) {
      return Next(Some(StatusError(AuthRequiredMessage, 401)));
    }
    var token := BearerToken(header.value);
    var payload := tokens.verify(token, secret);
    if payload.None? {
      return Next(Some(StatusError(InvalidTokenMessage, 401)));
    }
    req.user := Some(UserOf(payload.value));
    o := Next(None);
  }

  // ----- what the middleware promises -----

  /** The token is the piece after "Bearer ", up to the next space if there is one. */
  lemma TokenIsSecondPiece(token: string, rest: string)
    requires ' ' !in token
    ensures BearerToken(Scheme + token) == token
    ensures BearerToken(Scheme + token + " " + rest) == token
  {
    assert Scheme + token == "Bearer" + [' '] + token;
    SplitAtFirst("Bearer", ' ', token);
    SplitWithout(token, ' ');
    assert Scheme + token + " " + rest == "Bearer" + [' '] + (token + [' '] + rest);
    SplitAtFirst("Bearer", ' ', token + [' '] + rest);
    SplitAtFirst(token, ' ', rest);
  }

  /** The scheme is matched case-sensitively: "bearer " is refused as no credential at all. */
  lemma LowercaseSchemeRefused(token: string, tokens: Tokens, secret: string)
    ensures Decide(Some("bearer " + token), tokens, secret) == Failure(StatusError(AuthRequiredMessage, 401))
  {
    assert ("bearer " + token)[..7] != Scheme by {
      assert ("bearer " + token)[0] == 'b';
    }
  }

  /** A token that does not verify is refused with the invalid-token message. */
  lemma BadTokenRefused(token: string, tokens: Tokens, secret: string)
    requires ' ' !in token
    requires tokens.verify(token, secret).None?
    ensures Decide(Some(Scheme + token), tokens, secret) == Failure(StatusError(InvalidTokenMessage, 401))
  {
    TokenIsSecondPiece(token, "");
  }

  /** A token signed over `{ id }` with the same secret authenticates as that id. */
  lemma SignedTokenAuthenticates(id: Value, tokens: Tokens, secret: string)
    requires RoundTrips(tokens, id, secret)
    requires ' ' !in tokens.sign(id, secret)
    ensures Decide(Some(Scheme + tokens.sign(id, secret)), tokens, secret) == Success(AuthUser(Some(id)))
  {
    TokenIsSecondPiece(tokens.sign(id, secret), "");
  }
}

=== FILE: budget_controller.dfy ===
/**
 * The budget controllers. They run behind the authentication middleware:
 * a create stores the budget under the authenticated user's id and a listing
 * shows only that user's budgets; lookups, updates and deletes go by id alone.
 */
module BudgetController {
  import opened Wrappers
  import opened Values
  import opened Mongoose
  import opened Errors
  import opened Store
  import opened Http
  import opened BudgetServices
  import BudgetModel
  import BudgetValidation

  const NotFoundMessage := "Budget not found"

  /** `if (req.user && req.user.id) data.user = req.user.id`. */
  function AttachUser(data: Object, user: Option<AuthUser>): (d: Object)
    ensures user.Some? && user.value.id.Some? && Truthy(user.value.id.value) ==> d == data["user" := user.value.id.value]
    ensures !(user.Some? && user.value.id.Some? && Truthy(user.value.id.value)) ==> d == data
  {
    if user.Some? && user.value.id.Some? && Truthy(user.value.id.value) then data["user" := user.value.id.value] else data
  }

  /** The listing filter: the authenticated user's id, or nothing at all. */
  function OwnerFilter(user: Option<AuthUser>): Object {
    AttachUser(map[], user)
  }

  method CreateBudgetController(req: Request, db: Collection, id: string, now: int) returns (o: Outcome)
    requires db.kind == Budgets && db.Valid()
    modifies db
    ensures db.Valid()
    ensures var c := InsertResult(Budgets, old(db.docs), AttachUser(Spread(req.body), req.user), id, now);
      && db.docs == AfterInsert(Budgets, old(db.docs), AttachUser(Spread(req.body), req.user), id, now)
      && o == CreatedOr(if c.Success? then Success(ToObject(c.value)) else Failure(c.error))
  {
    var data := Spread(req.body);
    if req.user.Some? && req.user.value.id.Some? && Truthy(req.user.value.id.value) {
      data := data["user" := req.user.value.id.value];
    }
    var created := CreateBudget(db, data, id, now);
    o := CreatedOr(created);
  }

  method GetAllBudgetsController(req: Request, db: Collection) returns (o: Outcome)
    requires db.kind == Budgets
    ensures o == Ok(Listing(ToObjects(SortNewestFirst(Budgets, Select(db.docs, OwnerFilter(req.user))))))
  {
    var filter := map[];
    if req.user.Some? && req.user.value.id.Some? && Truthy(req.user.value.id.value) {
      filter := filter["user" := req.user.value.id.value];
    }
    var budgets := GetAllBudgets(db, filter);
    o := Ok(Listing(budgets));
  }

  /** The answer depends on the id alone: whoever is signed in may read any budget. */
  method GetBudgetByIdController(req: Request, db: Collection) returns (o: Outcome)
    ensures var id := IdParam(req.params);
      o.Respond? <==> id.Some? && exists j :: 0 <= j < |db.docs| && db.docs[j].id == id.value
    ensures var id := IdParam(req.params);
      o.Respond? ==> id.Some? && exists j :: 0 <= j < |db.docs| && db.docs[j].id == id.value && o == Ok(Obj(ToObject(db.docs[j])))
    ensures o.Next? ==> o == Next(Some(StatusError(NotFoundMessage, 404)))
  {
    var id := IdParam(req.params);
    if id.None? {
      return FoundOr(None, NotFoundMessage);
    }
    var found := GetBudgetById(db, id.value);
    o := FoundOr(found, NotFoundMessage);
  }

  method UpdateBudgetController(req: Request, db: Collection, now: int) returns (o: Outcome)
    requires db.kind == Budgets && db.Valid()
    modifies db
    ensures db.Valid()
    ensures var id := IdParam(req.params);
      var updates := Spread(req.body);
      && (id.None? ==> o == Next(Some(StatusError(NotFoundMessage, 404))) && db.docs == old(db.docs))
      && (id.Some? ==>
            var u := UpdateResult(Budgets, old(db.docs), id.value, updates, now);
            && db.docs == AfterUpdate(Budgets, old(db.docs), id.value, updates, now)
            && (u.Failure? ==> o == Next(Some(u.error)))
            && (u.Success? && u.value.None? ==> o == Next(Some(StatusError(NotFoundMessage, 404))))
            && (u.Success? && u.value.Some? ==> o == Ok(Obj(ToObject(u.value.value)))))
  {
    var id := IdParam(req.params);
    var updates := Spread(req.body);
    if id.None? {
      return FoundOr(None, NotFoundMessage);
    }
    var updated := UpdateBudget(db, id.value, updates, now);
    o := UpdatedOr(updated, NotFoundMessage);
  }

  method DeleteBudgetController(req: Request, db: Collection) returns (o: Outcome)
    requires db.Valid()
    modifies db
    ensures db.Valid()
    ensures var id := IdParam(req.params);
      && (o == Respond(Response(204, None)) <==> id.Some? && exists j :: 0 <= j < |old(db.docs)| && old(db.docs)[j].id == id.value)
      && (o != Respond(Response(204, None)) ==> o == Next(Some(StatusError(NotFoundMessage, 404))))
      && (id.Some? ==> db.docs == AfterDelete(old(db.docs), id.value))
  {
    var id := IdParam(req.params);
    if id.None? {
      return DeletedOr(false, NotFoundMessage);
    }
    var deleted := DeleteBudget(db, id.value);
    o := DeletedOr(deleted, NotFoundMessage);
  }

  // ----- ownership -----

  /**
   * A body the create schema accepts becomes a valid budget owned by the
   * signed-in user, whatever user id the body itself named.
   */
  lemma CreatedBudgetIsOwned(b: Object, uid: string, now: int)
    requires BudgetValidation.CreateBodyOk(b)
    requires uid != ""
    ensures var d := Prepare(Budgets, AttachUser(b, Some(AuthUser(Some(Str(uid))))), now);
      DocValid(BudgetModel.Rules, d) && d["user"] == Str(uid)
  {
    var data := AttachUser(b, Some(AuthUser(Some(Str(uid)))));
    var d := Prepare(Budgets, data, now);
    assert data["user"] == Str(uid);
    assert d["user"] == Str(uid);
    assert d["month"] == b["month"] && d["year"] == b["year"];
    assert d["monthlyGoal"] == b["monthlyGoal"] && d["savingsTarget"] == b["savingsTarget"];
    BudgetModel.BudgetRulesMeaning(d);
  }

  /** A signed-in user's listing holds exactly that user's budgets. */
  lemma ListingIsOwnBudgets(docs: seq<Doc>, uid: string)
    requires uid != ""
    ensures var r := SortNewestFirst(Budgets, Select(docs, OwnerFilter(Some(AuthUser(Some(Str(uid)))))));
      forall d :: d in r <==> d in docs && "user" in d.fields && d.fields["user"] == Str(uid)
  {
    var filter := OwnerFilter(Some(AuthUser(Some(Str(uid)))));
    assert filter == map["user" := Str(uid)];
    ListingMeaning(docs, filter);
  }

  /** A token whose payload carries no id lists every user's budgets. */
  lemma TokenWithoutIdListsAll(docs: seq<Doc>)
    ensures multiset(SortNewestFirst(Budgets, Select(docs, OwnerFilter(Some(AuthUser(None)))))) == multiset(docs)
  {
    ListAllIsEverything(docs);
  }
}

=== FILE: budget_model.dfy ===
/** The Budget document model: its schema paths and what a stored budget looks like. */
module BudgetModel {
  import opened Wrappers
  import opened Values
  import opened Mongoose
  import BudgetValidation

  const ModelName := "Budget"

  /** The schema paths, in declaration order; `timestamps` is handled by the store. */
  const Rules: seq<PathRule> := [
    PathRule("user", ObjectIdType, true, None, None, None),
    PathRule("month", NumberType, true, Some(1.0), Some(12.0), None),
    PathRule("year", NumberType, true, None, None, None),
    PathRule("monthlyGoal", NumberType, true, Some(0.0), None, None),
    PathRule("savingsTarget", NumberType, true, Some(0.0), None, None)
  ]

  /** A budget document the schema accepts, stated directly. */
  predicate BudgetDocOk(d: Object) {
    && "user" in d && d["user"].Str?
    && "month" in d && d["month"].Num? && 1.0 <= d["month"].n <= 12.0
    && "year" in d && d["year"].Num?
    && "monthlyGoal" in d && d["monthlyGoal"].Num? && d["monthlyGoal"].n >= 0.0
    && "savingsTarget" in d && d["savingsTarget"].Num? && d["savingsTarget"].n >= 0.0
  }

  lemma BudgetRulesMeaning(d: Object)
    ensures DocValid(Rules, d) <==> BudgetDocOk(d)
  {
    DocIssuesEmpty(Rules, d);
    if DocValid(Rules, d) {
      assert PathAdmits(Rules[0], Get(d, Rules[0].path));
      assert PathAdmits(Rules[1], Get(d, Rules[1].path));
      assert PathAdmits(Rules[2], Get(d, Rules[2].path));
      assert PathAdmits(Rules[3], Get(d, Rules[3].path));
      assert PathAdmits(Rules[4], Get(d, Rules[4].path));
    }
    if BudgetDocOk(d) {
      forall i | 0 <= i < |Rules| ensures PathAdmits(Rules[i], Get(d, Rules[i].path)) {
      }
    }
  }

  /** Every body the create schema accepts is also a valid budget document. */
  lemma CreateBodyIsStorable(b: Object)
    requires BudgetValidation.CreateBodyOk(b)
    ensures DocValid(Rules, b)
  {
    BudgetRulesMeaning(b);
  }

  /**
   * The document layer is weaker than the request schema: a year before 2000
   * and a fractional month pass the model but not the create schema.
   */
  lemma ModelAdmitsWhatSchemaRejects(b: Object)
    requires BudgetValidation.CreateBodyOk(b)
    ensures var d := b["year" := Num(1999.0)]["month" := Num(1.5)];
      DocValid(Rules, d) && !BudgetValidation.CreateBodyOk(d)
  {
    var d := b["year" := Num(1999.0)]["month" := Num(1.5)];
    BudgetRulesMeaning(d);
    assert (1.5).Floor == 1;
  }

  /** A thirteenth month is a `max` error on the month path. */
  lemma Month13IsMaxError(d: Object)
    requires "month" in d && d["month"] == Num(13.0)
    ensures DbFieldError("month", "max", "") in DocIssues(Rules, d)
  {
    assert PathIssues(Rules[1], Get(d, "month")) == [DbFieldError("month", "max", "")];
    assert DocIssues(Rules, d) == PathIssues(Rules[0], Get(d, "user")) + DocIssues(Rules[1..], d);
    assert DocIssues(Rules[1..], d) == PathIssues(Rules[1], Get(d, "month")) + DocIssues(Rules[2..], d);
  }
}

=== FILE: budget_services.dfy ===
/** The budget services over the budget collection. */
module BudgetServices {
  import opened Wrappers
  import opened Values
  import opened Errors
  import opened Store

  /** `createBudget(data)`: the stored record, or the error `create` raised. */
  method CreateBudget(db: Collection, data: Object, id: string, now: int) returns (r: Result<Object, Error>)
    requires db.kind == Budgets && db.Valid()
    modifies db
    ensures db.Valid()
    ensures var c := InsertResult(Budgets, old(db.docs), data, id, now);
      && (r.Success? <==> c.Success?)
      && (r.Success? ==> r.value == ToObject(c.value))
      && (r.Failure? ==> r.error == c.error)
    ensures db.docs == AfterInsert(Budgets, old(db.docs), data, id, now)
  {
    var created := db.Create(data, id, now);
    match created
    case Success(b) => r := Success(ToObject(b));
    case Failure(e) => r := Failure(e);
  }

  /** `getAllBudgets(filter)`: the matching records, latest period first. */
  method GetAllBudgets(db: Collection, filter: Object) returns (r: seq<Object>)
    requires db.kind == Budgets
    ensures r == ToObjects(SortNewestFirst(Budgets, Select(db.docs, filter)))
  {
    var found := db.Find(filter);
    r := ToObjects(SortNewestFirst(Budgets, found));
  }

  /** `getBudgetById(id)`: null exactly when no record has that id. */
  method GetBudgetById(db: Collection, id: string) returns (r: Option<Object>)
    ensures r.None? <==> forall j :: 0 <= j < |db.docs| ==> db.docs[j].id != id
    ensures r.Some? ==> exists j :: 0 <= j < |db.docs| && db.docs[j].id == id && r.value == ToObject(db.docs[j])
  {
    var b := db.FindById(id);
    if b.None? {
      return None;
    }
    r := Some(ToObject(b.value));
  }

  /** `updateBudget(id, updates)`: the updated record, null when absent, or the validation error. */
  method UpdateBudget(db: Collection, id: string, updates: Object, now: int) returns (r: Result<Option<Object>, Error>)
    requires db.kind == Budgets && db.Valid()
    modifies db
    ensures db.Valid()
    ensures var u := UpdateResult(Budgets, old(db.docs), id, updates, now);
      && (r.Failure? <==> u.Failure?)
      && (r.Failure? ==> r.error == u.error)
      && (r.Success? ==> (r.value.None? <==> u.value.None?))
      && (r.Success? && r.value.Some? ==> r.value.value == ToObject(u.value.value))
    ensures db.docs == AfterUpdate(Budgets, old(db.docs), id, updates, now)
  {
    var updated := db.FindByIdAndUpdate(id, updates, now);
    match updated
    case Failure(e) => r := Failure(e);
    case Success(None) => r := Success(None);
    case Success(Some(b)) => r := Success(Some(ToObject(b)));
  }

  /** `deleteBudget(id)`: true exactly when a record was removed. */
  method DeleteBudget(db: Collection, id: string) returns (deleted: bool)
    requires db.Valid()
    modifies db
    ensures db.Valid()
    ensures deleted <==> exists j :: 0 <= j < |old(db.docs)| && old(db.docs)[j].id == id
    ensures db.docs == AfterDelete(old(db.docs), id)
  {
    var removed := db.FindByIdAndDelete(id);
    deleted := removed.Some?;
  }

  // ----- what listing promises -----

  /**
   * The list holds exactly the stored budgets that match the filter, each
   * once, by year descending and then month descending.
   */
  lemma ListingMeaning(docs: seq<Doc>, filter: Object)
    ensures var r := SortNewestFirst(Budgets, Select(docs, filter));
      && (forall d :: d in r <==> d in docs && Matches(d, filter))
      && multiset(r) == multiset(Select(docs, filter))
      && forall i, j :: 0 <= i < j < |r| ==>
           NumberOf(r[i], "year") > NumberOf(r[j], "year")
           || (NumberOf(r[i], "year") == NumberOf(r[j], "year") && NumberOf(r[i], "month") >= NumberOf(r[j], "month"))
  {
    var s := Select(docs, filter);
    var r := SortNewestFirst(Budgets, s);
    forall d ensures d in r <==> d in s {
      assert d in r <==> d in multiset(r);
    }
    forall i, j | 0 <= i < j < |r|
      ensures NumberOf(r[i], "year") > NumberOf(r[j], "year")
           || (NumberOf(r[i], "year") == NumberOf(r[j], "year") && NumberOf(r[i], "month") >= NumberOf(r[j], "month"))
    {
      assert KeyGe(SortKey(Budgets, r[i]), SortKey(Budgets, r[j]));
    }
  }

  /** With the empty filter every stored budget is listed. */
  lemma ListAllIsEverything(docs: seq<Doc>)
    ensures multiset(SortNewestFirst(Budgets, Select(docs, map[]))) == multiset(docs)
  {
    SelectAll(docs);
  }
}

=== FILE: budget_validation.dfy ===
/** The request schemas of the budget routes. */
module BudgetValidation {
  import opened Wrappers
  import opened Values
  import opened Zod
  import Strings

  const NonEmptyUpdateMessage := "At least one field must be provided for update"

  /** POST /budgets */
  const CreateBudgetSchema := Schema("body", Shape([
    Field("user", TextLength(24, "Invalid user ID"), false),
    Field("month", Integer(1, Some(12)), false),
    Field("year", Integer(2000, None), false),
    Field("monthlyGoal", NonNegative, false),
    Field("savingsTarget", NonNegative, false)
  ], None))

  /** The `:id` path parameter */
  const BudgetIdSchema := Schema("params", Shape([
    Field("id", TextLength(24, "Invalid budget ID"), false)
  ], None))

  /** PATCH /budgets/:id */
  const UpdateBudgetSchema := Schema("body", Shape([
    Field("month", Integer(1, Some(12)), true),
    Field("year", Integer(2000, None), true),
    Field("monthlyGoal", NonNegative, true),
    Field("savingsTarget", NonNegative, true)
  ], Some(NonEmptyUpdateMessage)))

  predicate IsMonth(v: Value) { v.Num? && IsInteger(v.n) && 1.0 <= v.n <= 12.0 }
  predicate IsYear(v: Value) { v.Num? && IsInteger(v.n) && v.n >= 2000.0 }
  predicate IsGoal(v: Value) { v.Num? && v.n >= 0.0 }

  predicate CreateBodyOk(b: Object) {
    && "user" in b && b["user"].Str? && Strings.Utf16Length(b["user"].s) == 24
    && "month" in b && IsMonth(b["month"])
    && "year" in b && IsYear(b["year"])
    && "monthlyGoal" in b && IsGoal(b["monthlyGoal"])
    && "savingsTarget" in b && IsGoal(b["savingsTarget"])
  }

  predicate UpdateBodyOk(b: Object) {
    && ("month" in b ==> IsMonth(b["month"]))
    && ("year" in b ==> IsYear(b["year"]))
    && ("monthlyGoal" in b ==> IsGoal(b["monthlyGoal"]))
    && ("savingsTarget" in b ==> IsGoal(b["savingsTarget"]))
    && ("month" in b || "year" in b || "monthlyGoal" in b || "savingsTarget" in b)
  }

  lemma CreateBudgetSchemaMeaning(input: Object)
    ensures SafeParse(CreateBudgetSchema, input).Success?
        <==> "body" in input && input["body"].Obj? && CreateBodyOk(input["body"].fields)
  {
    SafeParseMeaning(CreateBudgetSchema, input);
    if "body" in input && input["body"].Obj? {
      CreateShapeMeaning(input["body"].fields);
    }
  }

  /** The create shape accepts a body exactly when it is a create body. */
  lemma CreateShapeMeaning(b: Object)
    ensures ShapeAccepts(CreateBudgetSchema.shape, b) <==> CreateBodyOk(b)
  {
    var fs := CreateBudgetSchema.shape.fields;
    if CreateBodyOk(b) {
      forall i | 0 <= i < |fs| ensures FieldOk(fs[i], b) {
        assert i == 0 || i == 1 || i == 2 || i == 3 || i == 4;
      }
    }
    if ShapeAccepts(CreateBudgetSchema.shape, b) {
      assert FieldOk(fs[0], b) && FieldOk(fs[1], b) && FieldOk(fs[2], b);
      assert FieldOk(fs[3], b) && FieldOk(fs[4], b);
    }
  }

  lemma UpdateBudgetSchemaMeaning(input: Object)
    ensures SafeParse(UpdateBudgetSchema, input).Success?
        <==> "body" in input && input["body"].Obj? && UpdateBodyOk(input["body"].fields)
  {
    SafeParseMeaning(UpdateBudgetSchema, input);
    if "body" in input && input["body"].Obj? {
      UpdateShapeMeaning(input["body"].fields);
    }
  }

  /** The update shape accepts a body exactly when it is a update body. */
  lemma UpdateShapeMeaning(b: Object)
    ensures ShapeAccepts(UpdateBudgetSchema.shape, b) <==> UpdateBodyOk(b)
  {
    var fs := UpdateBudgetSchema.shape.fields;
    if UpdateBodyOk(b) {
      forall i | 0 <= i < |fs| ensures FieldOk(fs[i], b) {
        assert i == 0 || i == 1 || i == 2 || i == 3;
      }
      if "month" in b { assert fs[0].key in b; }
      else if "year" in b { assert fs[1].key in b; }
      else if "monthlyGoal" in b { assert fs[2].key in b; }
      else { assert fs[3].key in b; }
    }
    if ShapeAccepts(UpdateBudgetSchema.shape, b) {
      assert FieldOk(fs[0], b) && FieldOk(fs[1], b) && FieldOk(fs[2], b) && FieldOk(fs[3], b);
      var i :| 0 <= i < |fs| && fs[i].key in b;
      assert i == 0 || i == 1 || i == 2 || i == 3;
    }
  }

  lemma BudgetIdSchemaMeaning(input: Object)
    ensures SafeParse(BudgetIdSchema, input).Success?
        <==> "params" in input && input["params"].Obj? && "id" in input["params"].fields
             && input["params"].fields["id"].Str? && Strings.Utf16Length(input["params"].fields["id"].s) == 24
  {
    SafeParseMeaning(BudgetIdSchema, input);
    if "params" in input && input["params"].Obj? {
      assert BudgetIdSchema.shape.fields[0] == Field("id", TextLength(24, "Invalid budget ID"), false);
    }
  }

  /** Month 13 is out of range. */
  lemma Month13Rejected(b: Object)
    requires "month" in b && b["month"] == Num(13.0)
    ensures var r := SafeParse(CreateBudgetSchema, map["body" := Obj(b)]);
      r.Failure? && Issue(["body", "month"], TooBig, "") in r.error
  {
    var fs := CreateBudgetSchema.shape.fields;
    FieldIssuesInclude(["body"], fs, b, 1);
    assert fs[1] == Field("month", Integer(1, Some(12)), false);
    assert ["body"] + ["month"] == ["body", "month"];
    assert IsInteger(13.0);
    assert CheckIssues(["body", "month"], Integer(1, Some(12)), Num(13.0)) == [Issue(["body", "month"], TooBig, "")];
    assert Issue(["body", "month"], TooBig, "") in OneFieldIssues(["body"], fs[1], b);
    assert Issue(["body", "month"], TooBig, "") in FieldIssues(["body"], fs, b);
  }

  /** An empty update body is refused with the refinement's message. */
  lemma EmptyUpdateRejected()
    ensures SafeParse(UpdateBudgetSchema, map["body" := Obj(map[])])
         == Failure([Issue(["body"], Custom, NonEmptyUpdateMessage)])
  {
    var fs := UpdateBudgetSchema.shape.fields;
    var b: Object := map[];
    assert FieldIssues(["body"], fs[3..], b) == [];
    assert FieldIssues(["body"], fs[2..], b) == [];
    assert FieldIssues(["body"], fs[1..], b) == [];
    assert FieldIssues(["body"], fs, b) == [];
    assert Known(fs, b).Keys == {};
  }
}

=== FILE: cache.dfy ===
/**
 * The in-memory key/value cache with a time-to-live per entry. The clock
 * (`Date.now()`) is the parameter `now`, in milliseconds.
 */
module Cache {
  import opened Wrappers

  /** A stored value and the instant after which it is stale (None: never). */
  datatype Entry<V> = Entry(value: V, expiresAt: Option<int>)

  const DefaultTtlMs := 60000

  predicate IsExpired<V>(e: Entry<V>, now: int) {
    e.expiresAt.Some? && now > e.expiresAt.value
  }

  /** `ttlMs ? Date.now() + ttlMs : null`: only a zero time-to-live means "never expires". */
  function ExpiryFor(ttlMs: int, now: int): (r: Option<int>)
    ensures r.None? <==> ttlMs == 0
    ensures r.Some? ==> r.value - now == ttlMs
  {
    if ttlMs != 0 then Some(now + ttlMs) else None
  }

  /** What `get(key)` answers at time `now`. */
  function Lookup<V>(store: map<string, Entry<V>>, key: string, now: int): (r: Option<V>)
    ensures r.Some? <==> key in store && !IsExpired(store[key], now)
    ensures r.Some? ==> r.value == store[key].value
  {
    if key !in store then None
    else if IsExpired(store[key], now) then None
    else Some(store[key].value)
  }

  /** The store after `get(key)` at time `now`: a stale entry is dropped. */
  function AfterGet<V>(store: map<string, Entry<V>>, key: string, now: int): (s: map<string, Entry<V>>)
    ensures key in s <==> key in store && !IsExpired(store[key], now)
    ensures forall k :: k in s ==> k in store && s[k] == store[k]
    ensures forall k :: k in store && k != key ==> k in s
  {
    if key in store && IsExpired(store[key], now) then store - {key} else store
  }

  class InMemoryCache<V> {
    var store: map<string, Entry<V>>

    constructor()
      ensures store == map[]
    {
      store := map[];
    }

    method Set(key: string, value: V, now: int, ttlMs: int := DefaultTtlMs)
      modifies this
      ensures store == old(store)[key := Entry(value, ExpiryFor(ttlMs, now))]
    {
      var expiresAt := if ttlMs != 0 then Some(now + ttlMs) else None;
      store := store[key := Entry(value, expiresAt)];
    }

    method Get(key: string, now: int) returns (r: Option<V>)
      modifies this
      ensures r == Lookup(old(store), key, now)
      ensures store == AfterGet(old(store), key, now)
    {
      if key !in store {
        return None;
      }
      var entry := store[key];
      if entry.expiresAt.Some? && now > entry.expiresAt.value {
        store := store - {key};
        return None;
      }
      r := Some(entry.value);
    }

    method Delete(key: string)
      modifies this
      ensures store == old(store) - {key}
    {
      store := store - {key};
    }

    method Clear()
      modifies this
      ensures store == map[]
    {
      store := map[];
    }
  }

  /** A value set with a time-to-live is read back until, and not after, its expiry. */
  lemma SetThenLookup<V>(store: map<string, Entry<V>>, key: string, value: V, now: int, ttlMs: int, later: int)
    ensures Lookup(store[key := Entry(value, ExpiryFor(ttlMs, now))], key, later)
         == if ttlMs != 0 && later - now > ttlMs then None else Some(value)
  {
  }

  /** With the default time-to-live the value is there for exactly one minute. */
  lemma DefaultTtlIsOneMinute<V>(store: map<string, Entry<V>>, key: string, value: V, now: int)
    ensures var s := store[key := Entry(value, ExpiryFor(DefaultTtlMs, now))];
      Lookup(s, key, now + 60000) == Some(value) && Lookup(s, key, now + 60001) == None
  {
    SetThenLookup(store, key, value, now, DefaultTtlMs, now + 60000);
    SetThenLookup(store, key, value, now, DefaultTtlMs, now + 60001);
  }

  /** A negative time-to-live is truthy in JavaScript, so the entry is stale at once. */
  lemma NegativeTtlIsStaleAtOnce<V>(store: map<string, Entry<V>>, key: string, value: V, now: int, ttlMs: int)
    requires ttlMs < 0
    ensures Lookup(store[key := Entry(value, ExpiryFor(ttlMs, now))], key, now) == None
  {
  }

  /** Staleness is permanent: an entry expired at one time is expired at every later time. */
  lemma ExpiryIsPermanent<V>(e: Entry<V>, t: int, later: int)
    requires IsExpired(e, t) && t <= later
    ensures IsExpired(e, later)
  {
  }

  /** Reading twice at the same time answers the same and leaves the store as the first read did. */
  lemma GetIsIdempotent<V>(store: map<string, Entry<V>>, key: string, now: int)
    ensures Lookup(AfterGet(store, key, now), key, now) == Lookup(store, key, now)
    ensures AfterGet(AfterGet(store, key, now), key, now) == AfterGet(store, key, now)
  {
  }

  /** Reading never changes what any key answers at the same or a later time. */
  lemma GetIsUnobservable<V>(store: map<string, Entry<V>>, key: string, now: int, k: string, later: int)
    requires now <= later
    ensures Lookup(AfterGet(store, key, now), k, later) == Lookup(store, k, later)
  {
  }

  /** Setting or deleting one key leaves every other key's answer alone. */
  lemma OtherKeysUntouched<V>(store: map<string, Entry<V>>, key: string, value: V, now: int, ttlMs: int, k: string, t: int)
    requires k != key
    ensures Lookup(store[key := Entry(value, ExpiryFor(ttlMs, now))], k, t) == Lookup(store, k, t)
    ensures Lookup(store - {key}, k, t) == Lookup(store, k, t)
  {
  }

  /** After `delete(key)` the key answers nothing. */
  lemma DeleteForgets<V>(store: map<string, Entry<V>>, key: string, t: int)
    ensures Lookup(store - {key}, key, t) == None
  {
  }
}

=== FILE: error_handler.dfy ===
/**
 * The central error handler: an ordered chain of tests on the shape of an
 * error that picks the status and builds the JSON envelope. The console
 * logging is left out; the clock reading arrives as the ISO text `timestamp`.
 */
module ErrorHandler {
  import opened Wrappers
  import opened Values
  import opened Strings
  import opened Zod
  import opened Mongoose
  import opened Errors

  /**
   * The JSON body of an error answer, one field per key; an absent optional
   * key is one `JSON.stringify` leaves out because its value is undefined.
   */
  datatype Envelope = Envelope(
    success: bool,
    message: string,
    errorType: string,
    path: string,
    httpMethod: string,
    timestamp: string,
    statusCode: int,
    details: Option<Value>,
    fieldErrors: Option<seq<Value>>,
    duplicateFields: Option<Object>,
    stack: Option<string>)

  /** The status and the body the handler answers with. */
  datatype Reply = Reply(status: int, body: Envelope)

  const InternalMessage := "Internal server error"
  const TokenMessage := "Invalid or expired token"

  /** `if (err.statusCode)`: a status of 0 is falsy and does not count. */
  predicate HasStatus(e: Error) {
    e.statusCode.Some? && e.statusCode.value != 0
  }

  /** `s || fallback` for a string. */
  function OrElse(s: string, fallback: string): string {
    if s != "" then s else fallback
  }

  /** The base fields every answer starts from, with the status it is sent with. */
  function BaseResponse(err: Error, url: string, httpMethod: string, timestamp: string, status: int): Envelope {
    Envelope(false, OrElse(err.message, InternalMessage), OrElse(err.name, "Error"), url, httpMethod, timestamp,
             status, None, None, None, None)
  }

  /** `if (!isProd && err.stack) body.stack = err.stack` */
  function WithStack(body: Envelope, err: Error, isProd: bool): Envelope {
    if !isProd && err.stack.Some? && err.stack.value != "" then body.(stack := err.stack) else body
  }

  /** One entry of a zod error's `fieldErrors`: the issue path joined with dots. */
  function ZodFieldError(i: Issue): Value {
    Obj(map["path" := Str(Join(i.path, '.')), "message" := Str(i.message), "code" := Str(CodeName(i.code))])
  }

  /** One entry of a Mongoose error's `fieldErrors`. */
  function DbFieldErrorObject(e: DbFieldError): Value {
    Obj(map["path" := Str(e.path), "message" := Str(e.message), "kind" := Str(e.kind)])
  }

  predicate IsJwtError(e: Error) {
    e.name == "JsonWebTokenError" || e.name == "TokenExpiredError"
  }

  /** `errorHandler(err, req, res, next)` */
  function Handle(err: Error, url: string, httpMethod: string, isProd: bool, timestamp: string): (r: Reply)
    ensures !r.body.success
    ensures r.body.statusCode == r.status
    ensures r.body.path == url && r.body.httpMethod == httpMethod && r.body.timestamp == timestamp
    ensures r.body.stack.Some? <==> !isProd && err.stack.Some? && err.stack.value != ""
    ensures HasStatus(err) ==> r.status == err.statusCode.value
    ensures !HasStatus(err) ==> r.status in {400, 401, 409, 500}
    ensures !HasStatus(err) && r.status == 500 ==> r.body.message == InternalMessage
  {
    if HasStatus(err) then
      var status := err.statusCode.value;
      var details := if err.details.Some? then Some(IssueObjects(err.details.value)) else None;
      Reply(status, WithStack(BaseResponse(err, url, httpMethod, timestamp, status).(details := details), err, isProd))
    else if err.zodIssues.Some? then
      var issues := err.zodIssues.value;
      var fieldErrors := seq(|issues|, j requires 0 <= j < |issues| => ZodFieldError(issues[j]));
      var body := BaseResponse(err, url, httpMethod, timestamp, 400).(
        message := "Validation error", errorType := "ZodValidationError", fieldErrors := Some(fieldErrors));
      Reply(400, WithStack(body, err, isProd))
    else if err.name == "ValidationError" then
      var errs := if err.dbErrors.Some? then err.dbErrors.value else [];
      var fieldErrors := seq(|errs|, j requires 0 <= j < |errs| => DbFieldErrorObject(errs[j]));
      var body := BaseResponse(err, url, httpMethod, timestamp, 400).(
        message := "Database validation error", errorType := "MongooseValidationError", fieldErrors := Some(fieldErrors));
      Reply(400, WithStack(body, err, isProd))
    else if err.code == Some(DuplicateKeyCode) then
      var body := BaseResponse(err, url, httpMethod, timestamp, 409).(
        message := "Duplicate key error", errorType := "DuplicateKeyError", duplicateFields := err.keyValue);
      Reply(409, WithStack(body, err, isProd))
    else if IsJwtError(err) then
      var body := BaseResponse(err, url, httpMethod, timestamp, 401).(
        message := OrElse(err.message, TokenMessage), errorType := "AuthError");
      Reply(401, WithStack(body, err, isProd))
    else
      var body := BaseResponse(err, url, httpMethod, timestamp, 500).(
        message := InternalMessage, errorType := "InternalServerError");
      Reply(500, WithStack(body, err, isProd))
  }

  // ----- the classification chain, rule by rule -----

  /** An explicit status wins over every other rule; the message, type and details are the error's own. */
  lemma ExplicitStatusWins(err: Error, url: string, httpMethod: string, isProd: bool, timestamp: string)
    requires HasStatus(err)
    ensures var r := Handle(err, url, httpMethod, isProd, timestamp);
      && r.status == err.statusCode.value
      && r.body.message == OrElse(err.message, InternalMessage)
      && r.body.errorType == OrElse(err.name, "Error")
      && r.body.details == (if err.details.Some? then Some(IssueObjects(err.details.value)) else None)
      && r.body.fieldErrors.None? && r.body.duplicateFields.None?
  {
  }

  /** A zod error is a 400 whose field errors carry each issue's path joined with dots. */
  lemma ZodErrorIs400(err: Error, url: string, httpMethod: string, isProd: bool, timestamp: string)
    requires !HasStatus(err) && err.zodIssues.Some?
    ensures var r := Handle(err, url, httpMethod, isProd, timestamp);
      var issues := err.zodIssues.value;
      && r.status == 400
      && r.body.message == "Validation error"
      && r.body.errorType == "ZodValidationError"
      && r.body.fieldErrors.Some? && |r.body.fieldErrors.value| == |issues|
      && forall j :: 0 <= j < |issues| ==> r.body.fieldErrors.value[j] == ZodFieldError(issues[j])
  {
  }

  /** The joined path gives the issue path back when no segment contains a dot. */
  lemma FieldErrorPathRecoverable(i: Issue)
    requires |i.path| >= 1 && forall k :: 0 <= k < |i.path| ==> '.' !in i.path[k]
    ensures ZodFieldError(i).fields["path"] == Str(Join(i.path, '.'))
    ensures Split(Join(i.path, '.'), '.') == i.path
  {
    SplitJoin(i.path, '.');
  }

  /** A Mongoose ValidationError is a 400 with one field error per failed path. */
  lemma DbValidationIs400(err: Error, url: string, httpMethod: string, isProd: bool, timestamp: string)
    requires !HasStatus(err) && err.zodIssues.None? && err.name == "ValidationError"
    ensures var r := Handle(err, url, httpMethod, isProd, timestamp);
      && r.status == 400
      && r.body.message == "Database validation error"
      && r.body.errorType == "MongooseValidationError"
      && r.body.fieldErrors.Some?
      && |r.body.fieldErrors.value| == (if err.dbErrors.Some? then |err.dbErrors.value| else 0)
      && (err.dbErrors.Some? ==> forall j :: 0 <= j < |err.dbErrors.value| ==>
            r.body.fieldErrors.value[j] == DbFieldErrorObject(err.dbErrors.value[j]))
  {
  }

  /** A duplicate-key error is a 409 naming the duplicate fields. */
  lemma DuplicateKeyIs409(err: Error, url: string, httpMethod: string, isProd: bool, timestamp: string)
    requires !HasStatus(err) && err.zodIssues.None? && err.name != "ValidationError" && err.code == Some(DuplicateKeyCode)
    ensures var r := Handle(err, url, httpMethod, isProd, timestamp);
      && r.status == 409
      && r.body.message == "Duplicate key error"
      && r.body.errorType == "DuplicateKeyError"
      && r.body.duplicateFields == err.keyValue
  {
  }

  /** A token error from the JWT library is a 401 of type AuthError. */
  lemma JwtErrorIs401(err: Error, url: string, httpMethod: string, isProd: bool, timestamp: string)
    requires !HasStatus(err) && err.zodIssues.None? && err.name != "ValidationError" && err.code != Some(DuplicateKeyCode)
    requires IsJwtError(err)
    ensures var r := Handle(err, url, httpMethod, isProd, timestamp);
      && r.status == 401
      && r.body.errorType == "AuthError"
      && r.body.message == OrElse(err.message, TokenMessage)
  {
  }

  /** Anything else is a 500 that says only "Internal server error". */
  lemma UnknownErrorIs500(err: Error, url: string, httpMethod: string, isProd: bool, timestamp: string)
    requires !HasStatus(err) && err.zodIssues.None? && err.name != "ValidationError" && err.code != Some(DuplicateKeyCode)
    requires !IsJwtError(err)
    ensures var r := Handle(err, url, httpMethod, isProd, timestamp);
      && r.status == 500
      && r.body.message == InternalMessage
      && r.body.errorType == "InternalServerError"
  {
  }

  /** In production no envelope carries a stack trace. */
  lemma ProductionHidesStack(err: Error, url: string, httpMethod: string, timestamp: string)
    ensures Handle(err, url, httpMethod, true, timestamp).body.stack.None?
  {
  }

  /** A controller's not-found error is answered 404 with its own message. */
  lemma NotFoundIs404(message: string, url: string, httpMethod: string, isProd: bool, timestamp: string)
    requires message != ""
    ensures var r := Handle(StatusError(message, 404), url, httpMethod, isProd, timestamp);
      r.status == 404 && r.body.message == message && r.body.errorType == "Error" && r.body.details.None?
  {
  }
}

=== FILE: errors.dfy ===
/**
 * The errors the application passes to `next(err)`: JavaScript Error objects
 * with the extra properties the code and its libraries attach to them.
 */
module Errors {
  import opened Wrappers
  import opened Values
  import opened Zod
  import opened Mongoose

  datatype Error = Error(
    name: string,                          // err.name
    message: string,                       // err.message
    statusCode: Option<int>,               // err.statusCode, set by controllers and middleware
    details: Option<seq<Issue>>,           // err.details
    zodIssues: Option<seq<Issue>>,         // present exactly when err instanceof ZodError: err.errors
    dbErrors: Option<seq<DbFieldError>>,   // err.errors of a Mongoose ValidationError
    code: Option<int>,                     // err.code of a MongoDB server error
    keyValue: Option<Object>,              // err.keyValue of a duplicate-key error
    stack: Option<string>)                 // err.stack

  /** The first line of the stack V8 records for an error; the frames are not modelled. */
  function StackHead(name: string, message: string): string {
    name + ": " + message
  }

  /** `new Error(message)` */
  function NewError(message: string): (e: Error)
    ensures e.name == "Error" && e.message == message && e.statusCode.None? && e.zodIssues.None?
  {
    Error("Error", message, None, None, None, None, None, None, Some(StackHead("Error", message)))
  }

  /** `const error = new Error(message); error.statusCode = status;` */
  function StatusError(message: string, status: int): (e: Error)
    ensures e.message == message && e.statusCode == Some(status) && e.details.None?
  {
    NewError(message).(statusCode := Some(status))
  }

  /** The ValidationError Mongoose throws when a document or update fails its validators. */
  function ValidationError(modelName: string, errs: seq<DbFieldError>): (e: Error)
    ensures e.name == "ValidationError" && e.dbErrors == Some(errs) && e.statusCode.None? && e.zodIssues.None?
  {
    var message := modelName + " validation failed";
    Error("ValidationError", message, None, None, None, Some(errs), None, None, Some(StackHead("ValidationError", message)))
  }

  /** MongoDB's error E11000 for a second document with the same value of a unique key. */
  const DuplicateKeyCode := 11000

  function DuplicateKeyError(keyValue: Object): (e: Error)
    ensures e.code == Some(DuplicateKeyCode) && e.keyValue == Some(keyValue)
    ensures e.statusCode.None? && e.zodIssues.None? && e.name != "ValidationError"
  {
    var message := "E11000 duplicate key error";
    Error("MongoServerError", message, None, None, None, None, Some(DuplicateKeyCode), Some(keyValue),
          Some(StackHead("MongoServerError", message)))
  }
}

=== FILE: http.dfy ===
/** The slice of Express the middleware and controllers touch: the request and what a handler does. */
module Http {
  import opened Wrappers
  import opened Values
  import opened Errors

  /** `req.user` as the authentication middleware sets it. */
  datatype AuthUser = AuthUser(id: Option<Value>)

  class Request {
    var body: Option<Value>
    var params: Option<Value>
    var query: Option<Value>
    var user: Option<AuthUser>
    const authorization: Option<string>   // req.headers.authorization
    const originalUrl: string
    const httpMethod: string

    constructor(body: Option<Value>, params: Option<Value>, query: Option<Value>,
                authorization: Option<string>, originalUrl: string, httpMethod: string)
      ensures this.body == body && this.params == params && this.query == query && user.None?
      ensures this.authorization == authorization && this.originalUrl == originalUrl && this.httpMethod == httpMethod
    {
      this.body := body;
      this.params := params;
      this.query := query;
      this.user := None;
      this.authorization := authorization;
      this.originalUrl := originalUrl;
      this.httpMethod := httpMethod;
    }
  }

  /** `res.status(status).json(body)`, or `.send()` with no body. */
  datatype Response = Response(status: int, body: Option<Value>)

  /** What a handler does: answer the request, or call `next` with or without an error. */
  datatype Outcome = Respond(response: Response) | Next(err: Option<Error>)

  /** `res.json(value)`, which answers 200. */
  function Ok(v: Value): Outcome {
    Respond(Response(200, Some(v)))
  }

  /** `const { id } = req.params`: the id when it is text, as the id validators guarantee. */
  function IdParam(params: Option<Value>): (id: Option<string>)
    ensures id.Some? <==> params.Some? && params.value.Obj? && "id" in params.value.fields && params.value.fields["id"].Str?
    ensures id.Some? ==> params.value.fields["id"] == Str(id.value)
  {
    if params.Some? && params.value.Obj? && "id" in params.value.fields && params.value.fields["id"].Str?
    then Some(params.value.fields["id"].s)
    else None
  }

  // ----- the decisions every controller shares -----

  /** A create: 201 with the record, or the service's error forwarded unchanged. */
  function CreatedOr(r: Result<Object, Error>): (o: Outcome)
    ensures o.Respond? <==> r.Success?
    ensures r.Success? ==> o == Respond(Response(201, Some(Obj(r.value))))
    ensures r.Failure? ==> o == Next(Some(r.error))
  {
    match r
    case Success(record) => Respond(Response(201, Some(Obj(record))))
    case Failure(e) => Next(Some(e))
  }

  /** A lookup: 200 with the record, or a 404 error with `message` when the service answered null. */
  function FoundOr(r: Option<Object>, message: string): (o: Outcome)
    ensures o.Respond? <==> r.Some?
    ensures r.Some? ==> o == Ok(Obj(r.value))
    ensures r.None? ==> o == Next(Some(StatusError(message, 404)))
  {
    match r
    case Some(record) => Ok(Obj(record))
    case None => Next(Some(StatusError(message, 404)))
  }

  /** An update: a lookup whose service may also fail. */
  function UpdatedOr(r: Result<Option<Object>, Error>, message: string): (o: Outcome)
    ensures r.Failure? ==> o == Next(Some(r.error))
    ensures r.Success? ==> o == FoundOr(r.value, message)
  {
    match r
    case Failure(e) => Next(Some(e))
    case Success(found) => FoundOr(found, message)
  }

  /** A delete: 204 with no body when something was removed, otherwise a 404 error. */
  function DeletedOr(deleted: bool, message: string): (o: Outcome)
    ensures deleted <==> o.Respond?
    ensures deleted ==> o == Respond(Response(204, None))
    ensures !deleted ==> o == Next(Some(StatusError(message, 404)))
  {
    if deleted then Respond(Response(204, None)) else Next(Some(StatusError(message, 404)))
  }

  /** `res.json(records)` for a list: an array of the records in the order given. */
  function Listing(records: seq<Object>): (v: Value)
    ensures v.Arr? && |v.items| == |records|
    ensures forall i :: 0 <= i < |records| ==> v.items[i] == Obj(records[i])
  {
    if records == [] then Arr([]) else Arr([Obj(records[0])] + Listing(records[1..]).items)
  }
}

=== FILE: jwt.dfy ===
/**
 * JSON Web Tokens as the application uses them: a token is signed over
 * `{ id }` and verified with one shared secret. Signing and verifying are
 * functions the model does not look inside.
 */
module Jwt {
  import opened Wrappers
  import opened Values

  const DefaultSecret := "defaultsecretkey"

  /** `process.env.JWT_SECRET || 'defaultsecretkey'`: an unset or empty variable falls back. */
  function SecretFrom(env: Option<string>): (s: string)
    ensures env.Some? && env.value != "" ==> s == env.value
    ensures env.None? || env.value == "" ==> s == DefaultSecret
  {
    if env.Some? && env.value != "" then env.value else DefaultSecret
  }

  /**
   * `jwt.sign({ id }, secret)` answers a token; `jwt.verify(token, secret)`
   * answers the payload, or None where the library throws.
   */
  datatype Tokens = Tokens(sign: (Value, string) -> string, verify: (string, string) -> Option<Value>)

  /**
   * The one fact about the library the model relies on: a token verifies
   * back to an object payload whose `id` is the signed one (the library may
   * add claims such as `iat`).
   */
  predicate RoundTrips(t: Tokens, id: Value, secret: string) {
    var payload := t.verify(t.sign(id, secret), secret);
    payload.Some? && payload.value.Obj? && "id" in payload.value.fields && payload.value.fields["id"] == id
  }
}

=== FILE: mongoose.dfy ===
/**
 * The part of the Mongoose schema language the two document models use, as an
 * interpreter over path rules: the validation errors a document, or an update
 * of some of its paths, produces.
 */
module Mongoose {
  import opened Wrappers
  import opened Values

  datatype SchemaType = ObjectIdType | StringType | NumberType | DateType

  /** One schema path: its type, `required`, `min`/`max` (numbers) and `enum` (strings). */
  datatype PathRule = PathRule(
    path: string,
    schemaType: SchemaType,
    required: bool,
    min: Option<real>,
    max: Option<real>,
    enumValues: Option<seq<string>>)

  /** One entry of a ValidationError's `errors`: the path, the validator kind and the text. */
  datatype DbFieldError = DbFieldError(path: string, kind: string, message: string)

  /** Whether a value is already of the path's type (casting other values is not modelled). */
  predicate HasType(t: SchemaType, v: Value) {
    match t
    case ObjectIdType => v.Str?
    case StringType => v.Str?
    case NumberType => v.Num?
    case DateType => v.Date?
  }

  /** The `kind` of the cast error for a value of the wrong type. */
  function TypeName(t: SchemaType): string {
    match t
    case ObjectIdType => "ObjectId"
    case StringType => "String"
    case NumberType => "Number"
    case DateType => "Date"
  }

  /** What counts as no value: undefined, null, and the empty string on String and Date paths. */
  predicate Missing(t: SchemaType, v: Option<Value>) {
    v.None? || v.value == Null || ((t == StringType || t == DateType) && v.value == Str(""))
  }

  /** Mongoose's message for a failed `required` validator. */
  function RequiredMessage(path: string): string {
    "Path `" + path + "` is required."
  }

  /** The error of one path, if any: the first validator that fails, in Mongoose's order. */
  function PathIssues(r: PathRule, v: Option<Value>): (errs: seq<DbFieldError>)
    ensures |errs| <= 1
    ensures forall i :: 0 <= i < |errs| ==> errs[i].path == r.path
  {
    if Missing(r.schemaType, v) then
      (if r.required then [DbFieldError(r.path, "required", RequiredMessage(r.path))] else [])
    else if !HasType(r.schemaType, v.value) then [DbFieldError(r.path, TypeName(r.schemaType), "")]
    else if r.min.Some? && v.value.Num? && v.value.n < r.min.value then [DbFieldError(r.path, "min", "")]
    else if r.max.Some? && v.value.Num? && v.value.n > r.max.value then [DbFieldError(r.path, "max", "")]
    else if r.enumValues.Some? && v.value.Str? && v.value.s !in r.enumValues.value then [DbFieldError(r.path, "enum", "")]
    else []
  }

  /** What one path admits, stated directly. */
  predicate PathAdmits(r: PathRule, v: Option<Value>) {
    if Missing(r.schemaType, v) then !r.required
    else
      && HasType(r.schemaType, v.value)
      && (r.min.Some? && v.value.Num? ==> v.value.n >= r.min.value)
      && (r.max.Some? && v.value.Num? ==> v.value.n <= r.max.value)
      && (r.enumValues.Some? && v.value.Str? ==> v.value.s in r.enumValues.value)
  }

  lemma PathIssuesMeaning(r: PathRule, v: Option<Value>)
    ensures PathIssues(r, v) == [] <==> PathAdmits(r, v)
  {
  }

  /** `doc.validateSync()`: at most one error for every schema path, listed here in schema order. */
  function DocIssues(rules: seq<PathRule>, doc: Object): (errs: seq<DbFieldError>)
    ensures |errs| <= |rules|
  {
    if rules == [] then []
    else PathIssues(rules[0], Get(doc, rules[0].path)) + DocIssues(rules[1..], doc)
  }

  /** Update validators: only the paths the update sets are checked. */
  function UpdateIssues(rules: seq<PathRule>, updates: Object): (errs: seq<DbFieldError>)
    ensures forall i :: 0 <= i < |errs| ==> errs[i].path in updates
  {
    if rules == [] then []
    else
      (if rules[0].path in updates then PathIssues(rules[0], Some(updates[rules[0].path])) else [])
      + UpdateIssues(rules[1..], updates)
  }

  predicate DocValid(rules: seq<PathRule>, doc: Object) {
    DocIssues(rules, doc) == []
  }

  lemma {:induction false} DocIssuesEmpty(rules: seq<PathRule>, doc: Object)
    ensures DocValid(rules, doc) <==> forall i :: 0 <= i < |rules| ==> PathAdmits(rules[i], Get(doc, rules[i].path))
  {
    if rules != [] {
      PathIssuesMeaning(rules[0], Get(doc, rules[0].path));
      DocIssuesEmpty(rules[1..], doc);
      assert forall i :: 1 <= i < |rules| ==> rules[i] == rules[1..][i - 1];
    }
  }

  lemma {:induction false} UpdateIssuesEmpty(rules: seq<PathRule>, updates: Object)
    ensures UpdateIssues(rules, updates) == []
        <==> forall i :: 0 <= i < |rules| && rules[i].path in updates ==> PathAdmits(rules[i], Some(updates[rules[i].path]))
  {
    if rules != [] {
      if rules[0].path in updates {
        PathIssuesMeaning(rules[0], Some(updates[rules[0].path]));
      }
      UpdateIssuesEmpty(rules[1..], updates);
      assert forall i :: 1 <= i < |rules| ==> rules[i] == rules[1..][i - 1];
    }
  }

  function Paths(rules: seq<PathRule>): set<string> {
    set i | 0 <= i < |rules| :: rules[i].path
  }

  /** Strict mode: keys the schema does not declare are dropped before saving. */
  function Project(rules: seq<PathRule>, data: Object): (d: Object)
    ensures d.Keys == data.Keys * Paths(rules)
    ensures forall k :: k in d ==> d[k] == data[k]
  {
    map k | k in data && k in Paths(rules) :: data[k]
  }

  /**
   * A valid document stays valid under an update whose paths pass the update
   * validators, whatever keys outside the schema are written beside them.
   */
  lemma UpdateKeepsValid(rules: seq<PathRule>, doc: Object, updates: Object, extra: Object)
    requires DocValid(rules, doc)
    requires UpdateIssues(rules, updates) == []
    requires extra.Keys !! Paths(rules)
    ensures DocValid(rules, doc + updates + extra)
  {
    var d := doc + updates + extra;
    DocIssuesEmpty(rules, doc);
    UpdateIssuesEmpty(rules, updates);
    forall i | 0 <= i < |rules| ensures PathAdmits(rules[i], Get(d, rules[i].path)) {
      var p := rules[i].path;
      assert p in Paths(rules);
      assert p !in extra;
    }
    DocIssuesEmpty(rules, d);
  }
}

=== FILE: store.dfy ===
/**
 * The MongoDB collections behind the two document models and the user model:
 * each is a sequence of documents in insertion order. Each operation is a
 * pure function giving its answer and the collection after it; the classes
 * apply those functions to their state.
 */
module Store {
  import opened Wrappers
  import opened Values
  import opened Mongoose
  import opened Errors
  import BudgetModel
  import TransactionModel

  datatype Kind = Transactions | Budgets

  /** A stored document: its `_id` and its other fields. */
  datatype Doc = Doc(id: string, fields: Object)

  function RulesOf(kind: Kind): seq<PathRule> {
    match kind
    case Transactions => TransactionModel.Rules
    case Budgets => BudgetModel.Rules
  }

  function ModelNameOf(kind: Kind): string {
    match kind
    case Transactions => TransactionModel.ModelName
    case Budgets => BudgetModel.ModelName
  }

  /** `doc.toObject()`: the stored fields with the id under `_id`. */
  function ToObject(d: Doc): (o: Object)
    ensures o.Keys == d.fields.Keys + {"_id"} && o["_id"] == Str(d.id)
    ensures forall k :: k in d.fields && k != "_id" ==> o[k] == d.fields[k]
  {
    d.fields["_id" := Str(d.id)]
  }

  function ToObjects(docs: seq<Doc>): (r: seq<Object>)
    ensures |r| == |docs|
    ensures forall i :: 0 <= i < |docs| ==> r[i] == ToObject(docs[i])
  {
    seq(|docs|, i requires 0 <= i < |docs| => ToObject(docs[i]))
  }

  predicate DistinctIds(docs: seq<Doc>) {
    forall i, j :: 0 <= i < j < |docs| ==> docs[i].id != docs[j].id
  }

  predicate DocOk(kind: Kind, d: Doc) {
    DocValid(RulesOf(kind), d.fields)
  }

  /** The collection invariant: ids are unique and every document passes its schema. */
  predicate DocsOk(kind: Kind, docs: seq<Doc>) {
    DistinctIds(docs) && forall i :: 0 <= i < |docs| ==> DocOk(kind, docs[i])
  }

  /** The position of the document with this id, if there is one. */
  function IndexOfId(docs: seq<Doc>, id: string): (r: Option<nat>)
    ensures r.Some? ==> r.value < |docs| && docs[r.value].id == id
    ensures r.Some? ==> forall j :: 0 <= j < r.value ==> docs[j].id != id
    ensures r.None? <==> forall j :: 0 <= j < |docs| ==> docs[j].id != id
  {
    if docs == [] then None
    else if docs[0].id == id then Some(0)
    else match IndexOfId(docs[1..], id)
      case None => None
      case Some(k) => Some(k + 1)
  }

  /** `Model.findById(id)` */
  function FindId(docs: seq<Doc>, id: string): (r: Option<Doc>)
    ensures r.Some? <==> exists j :: 0 <= j < |docs| && docs[j].id == id
    ensures r.Some? ==> r.value in docs && r.value.id == id
  {
    match IndexOfId(docs, id)
    case None => None
    case Some(i) => Some(docs[i])
  }

  /** The declared paths of each schema. */
  function SchemaPaths(kind: Kind): set<string> {
    match kind
    case Transactions => {"user", "type", "category", "amount", "date", "note"}
    case Budgets => {"user", "month", "year", "monthlyGoal", "savingsTarget"}
  }

  lemma SchemaPathsAreRulePaths(kind: Kind)
    ensures Paths(RulesOf(kind)) == SchemaPaths(kind)
  {
    var rules := RulesOf(kind);
    forall p | p in SchemaPaths(kind) ensures p in Paths(rules) {
      if kind == Transactions {
        assert p == rules[0].path || p == rules[1].path || p == rules[2].path
            || p == rules[3].path || p == rules[4].path || p == rules[5].path;
      } else {
        assert p == rules[0].path || p == rules[1].path || p == rules[2].path
            || p == rules[3].path || p == rules[4].path;
      }
    }
  }

  /** Strict mode for one schema: only its declared paths are kept. */
  function Strict(kind: Kind, data: Object): (d: Object)
    ensures d.Keys == data.Keys * SchemaPaths(kind)
    ensures forall k :: k in d ==> d[k] == data[k]
  {
    SchemaPathsAreRulePaths(kind);
    Project(RulesOf(kind), data)
  }

  /** The fields `timestamps: true` and the version key add to every new document. */
  const Stamps: set<string> := {"createdAt", "updatedAt", "__v"}

  lemma StampsAreNotPaths(kind: Kind)
    ensures Stamps !! SchemaPaths(kind)
    ensures "date" !in Stamps
  {
  }

  /** `timestamps: true` and the version key on a new document. */
  function Stamp(d: Object, now: int): (r: Object)
    ensures r.Keys == d.Keys + Stamps
    ensures forall k :: k in d && k !in Stamps ==> r[k] == d[k]
    ensures r["createdAt"] == Date(now) && r["updatedAt"] == Date(now) && r["__v"] == Num(0.0)
  {
    d["createdAt" := Date(now)]["updatedAt" := Date(now)]["__v" := Num(0.0)]
  }

  /** What `Model.create(data)` stores: strict projection, the schema default, timestamps and version key. */
  function Prepare(kind: Kind, data: Object, now: int): (d: Object)
    ensures forall k :: k in d <==> (k in data && k in SchemaPaths(kind)) || k in Stamps || (kind == Transactions && k == "date")
    ensures forall k :: k in data && k in SchemaPaths(kind) ==> d[k] == data[k]
    ensures d["createdAt"] == Date(now) && d["updatedAt"] == Date(now) && d["__v"] == Num(0.0)
    ensures kind == Transactions && "date" !in data ==> d["date"] == Date(now)
  {
    StampsAreNotPaths(kind);
    var projected := Strict(kind, data);
    var defaulted := if kind == Transactions then TransactionModel.WithDefaults(projected, now) else projected;
    Stamp(defaulted, now)
  }

  /** `Model.create(data)` with the new id `id`: validation first, then the unique `_id` index. */
  function InsertResult(kind: Kind, docs: seq<Doc>, data: Object, id: string, now: int): (r: Result<Doc, Error>)
    ensures r.Success? <==> DocValid(RulesOf(kind), Prepare(kind, data, now)) && IndexOfId(docs, id).None?
    ensures r.Success? ==> r.value == Doc(id, Prepare(kind, data, now))
    ensures r.Failure? && !DocValid(RulesOf(kind), Prepare(kind, data, now)) ==>
      r.error == ValidationError(ModelNameOf(kind), DocIssues(RulesOf(kind), Prepare(kind, data, now)))
    ensures r.Failure? && DocValid(RulesOf(kind), Prepare(kind, data, now)) ==>
      r.error == DuplicateKeyError(map["_id" := Str(id)])
  {
    var d := Prepare(kind, data, now);
    var errs := DocIssues(RulesOf(kind), d);
    if errs != [] then Failure(ValidationError(ModelNameOf(kind), errs))
    else if IndexOfId(docs, id).Some? then Failure(DuplicateKeyError(map["_id" := Str(id)]))
    else Success(Doc(id, d))
  }

  function AfterInsert(kind: Kind, docs: seq<Doc>, data: Object, id: string, now: int): seq<Doc> {
    match InsertResult(kind, docs, data, id, now)
    case Success(d) => docs + [d]
    case Failure(_) => docs
  }

  /**
   * `Model.findByIdAndUpdate(id, updates, {new: true, runValidators: true})`:
   * unknown paths are dropped, the update validators run before the lookup,
   * and the updated document is the answer.
   */
  function UpdateResult(kind: Kind, docs: seq<Doc>, id: string, updates: Object, now: int): (r: Result<Option<Doc>, Error>)
    ensures r.Failure? <==> UpdateIssues(RulesOf(kind), Strict(kind, updates)) != []
    ensures r.Success? ==> (r.value.None? <==> IndexOfId(docs, id).None?)
  {
    var u := Strict(kind, updates);
    var errs := UpdateIssues(RulesOf(kind), u);
    if errs != [] then Failure(ValidationError(ModelNameOf(kind), errs))
    else match IndexOfId(docs, id)
      case None => Success(None)
      case Some(i) => Success(Some(Doc(id, docs[i].fields + u + map["updatedAt" := Date(now)])))
  }

  function AfterUpdate(kind: Kind, docs: seq<Doc>, id: string, updates: Object, now: int): (r: seq<Doc>)
    ensures |r| == |docs|
    ensures forall j :: 0 <= j < |docs| && docs[j].id != id ==> r[j] == docs[j]
  {
    match IndexOfId(docs, id)
    case None => docs
    case Some(i) =>
      match UpdateResult(kind, docs, id, updates, now)
      case Success(Some(d)) => docs[i := d]
      case _ => docs
  }

  /** `Model.findByIdAndDelete(id)`: the document removed, if there was one. */
  function AfterDelete(docs: seq<Doc>, id: string): (r: seq<Doc>)
    ensures FindId(docs, id).None? ==> r == docs
    ensures FindId(docs, id).Some? ==> |r| == |docs| - 1
  {
    match IndexOfId(docs, id)
    case None => docs
    case Some(i) => docs[..i] + docs[i + 1..]
  }

  /** An equality filter such as `{ user: id }`: every key of the filter holds that value. */
  predicate Matches(d: Doc, filter: Object) {
    forall k :: k in filter ==> k in d.fields && d.fields[k] == filter[k]
  }

  /** `Model.find(filter)` before sorting: the matching documents in collection order. */
  function Select(docs: seq<Doc>, filter: Object): (r: seq<Doc>)
    ensures |r| <= |docs|
    ensures forall d :: d in r <==> d in docs && Matches(d, filter)
  {
    if docs == [] then []
    else (if Matches(docs[0], filter) then [docs[0]] else []) + Select(docs[1..], filter)
  }

  lemma {:induction false} SelectAppend(docs: seq<Doc>, d: Doc, filter: Object)
    ensures Select(docs + [d], filter) == Select(docs, filter) + (if Matches(d, filter) then [d] else [])
  {
    if docs == [] {
      assert Select([d], filter) == (if Matches(d, filter) then [d] else []) + Select([], filter);
    } else {
      assert (docs + [d])[1..] == docs[1..] + [d];
      SelectAppend(docs[1..], d, filter);
    }
  }

  /** The empty filter `{}` selects the whole collection, in order. */
  lemma {:induction false} SelectAll(docs: seq<Doc>)
    ensures Select(docs, map[]) == docs
  {
    if docs != [] {
      SelectAll(docs[1..]);
      assert docs == [docs[0]] + docs[1..];
    }
  }

  // ----- sorting, newest first -----

  /** The sort key: `{ date: -1 }` for transactions, `{ year: -1, month: -1 }` for budgets. */
  function SortKey(kind: Kind, d: Doc): (real, real) {
    match kind
    case Transactions => (DateOf(d), 0.0)
    case Budgets => (NumberOf(d, "year"), NumberOf(d, "month"))
  }

  function DateOf(d: Doc): real {
    if "date" in d.fields && d.fields["date"].Date? then d.fields["date"].ms as real else 0.0
  }

  function NumberOf(d: Doc, path: string): real {
    if path in d.fields && d.fields[path].Num? then d.fields[path].n else 0.0
  }

  /** `a` may come before `b` in a descending sort. */
  predicate KeyGe(a: (real, real), b: (real, real)) {
    a.0 > b.0 || (a.0 == b.0 && a.1 >= b.1)
  }

  predicate NewestFirst(kind: Kind, s: seq<Doc>) {
    forall i, j :: 0 <= i < j < |s| ==> KeyGe(SortKey(kind, s[i]), SortKey(kind, s[j]))
  }

  /** Puts `x` before the first element it does not sort after. */
  function InsertSorted(kind: Kind, x: Doc, s: seq<Doc>): (r: seq<Doc>)
    requires NewestFirst(kind, s)
    ensures NewestFirst(kind, r)
    ensures multiset(r) == multiset(s) + multiset{x}
  {
    if s == [] then [x]
    else if KeyGe(SortKey(kind, x), SortKey(kind, s[0])) then
      ConsNewestFirst(kind, x, s);
      [x] + s
    else
      var rest := InsertSorted(kind, x, s[1..]);
      InsertStep(kind, x, s, rest);
      [s[0]] + rest
  }

  lemma ConsNewestFirst(kind: Kind, h: Doc, t: seq<Doc>)
    requires NewestFirst(kind, t)
    requires t != [] ==> KeyGe(SortKey(kind, h), SortKey(kind, t[0]))
    ensures NewestFirst(kind, [h] + t)
  {
    var r := [h] + t;
    forall i, j | 0 <= i < j < |r| ensures KeyGe(SortKey(kind, r[i]), SortKey(kind, r[j])) {
      if i == 0 && j > 1 {
        assert r[1] == t[0] && r[j] == t[j - 1];
      }
    }
  }

  /** The step of `InsertSorted` that keeps the head of `s` in front. */
  lemma InsertStep(kind: Kind, x: Doc, s: seq<Doc>, rest: seq<Doc>)
    requires s != [] && NewestFirst(kind, s)
    requires !KeyGe(SortKey(kind, x), SortKey(kind, s[0]))
    requires NewestFirst(kind, rest) && multiset(rest) == multiset(s[1..]) + multiset{x}
    ensures NewestFirst(kind, [s[0]] + rest)
    ensures multiset([s[0]] + rest) == multiset(s) + multiset{x}
  {
    var r := [s[0]] + rest;
    forall y | y in rest ensures KeyGe(SortKey(kind, s[0]), SortKey(kind, y)) {
      assert y in multiset(rest);
      if y != x {
        assert y in s[1..];
        var j :| 0 <= j < |s[1..]| && s[1..][j] == y;
        assert s[j + 1] == y;
      }
    }
    forall i, j | 0 <= i < j < |r| ensures KeyGe(SortKey(kind, r[i]), SortKey(kind, r[j])) {
      assert r[j] == rest[j - 1];
      assert r[j] in rest;
      if i > 0 {
        assert r[i] == rest[i - 1];
      }
    }
    assert s == [s[0]] + s[1..];
  }

  /** `.sort(...)` as a stable insertion sort: newest first, same documents. */
  function SortNewestFirst(kind: Kind, s: seq<Doc>): (r: seq<Doc>)
    ensures NewestFirst(kind, r)
    ensures multiset(r) == multiset(s)
  {
    if s == [] then []
    else
      assert s == [s[0]] + s[1..];
      InsertSorted(kind, s[0], SortNewestFirst(kind, s[1..]))
  }

  // ----- the collection invariant is kept -----

  lemma InsertKeepsOk(kind: Kind, docs: seq<Doc>, data: Object, id: string, now: int)
    requires DocsOk(kind, docs)
    ensures DocsOk(kind, AfterInsert(kind, docs, data, id, now))
  {
    var r := InsertResult(kind, docs, data, id, now);
    if r.Success? {
      assert AfterInsert(kind, docs, data, id, now) == docs + [r.value];
      AppendKeepsOk(kind, docs, r.value);
    }
  }

  /** Appending a valid document under a new id keeps the invariant. */
  lemma AppendKeepsOk(kind: Kind, docs: seq<Doc>, d: Doc)
    requires DocsOk(kind, docs) && IndexOfId(docs, d.id).None? && DocOk(kind, d)
    ensures DocsOk(kind, docs + [d])
  {
  }

  lemma UpdateKeepsOk(kind: Kind, docs: seq<Doc>, id: string, updates: Object, now: int)
    requires DocsOk(kind, docs)
    ensures DocsOk(kind, AfterUpdate(kind, docs, id, updates, now))
  {
    var rules := RulesOf(kind);
    var u := Strict(kind, updates);
    var found := IndexOfId(docs, id);
    if found.Some? && UpdateIssues(rules, u) == [] {
      var i := found.value;
      var extra := map["updatedAt" := Date(now)];
      SchemaPathsAreRulePaths(kind);
      StampsAreNotPaths(kind);
      assert extra.Keys !! Paths(rules);
      Mongoose.UpdateKeepsValid(rules, docs[i].fields, u, extra);
      var d := Doc(id, docs[i].fields + u + extra);
      assert UpdateResult(kind, docs, id, updates, now) == Success(Some(d));
      assert AfterUpdate(kind, docs, id, updates, now) == docs[i := d];
      ReplaceKeepsOk(kind, docs, i, d);
    } else {
      assert AfterUpdate(kind, docs, id, updates, now) == docs;
    }
  }

  /** Replacing a document by a valid one under the same id keeps the invariant. */
  lemma ReplaceKeepsOk(kind: Kind, docs: seq<Doc>, i: nat, d: Doc)
    requires i < |docs| && DocsOk(kind, docs)
    requires d.id == docs[i].id && DocOk(kind, d)
    ensures DocsOk(kind, docs[i := d])
  {
  }

  lemma DeleteKeepsOk(kind: Kind, docs: seq<Doc>, id: string)
    requires DocsOk(kind, docs)
    ensures DocsOk(kind, AfterDelete(docs, id))
  {
    match IndexOfId(docs, id)
    case None =>
    case Some(i) => RemoveKeepsOk(kind, docs, i);
  }

  lemma RemoveKeepsOk(kind: Kind, docs: seq<Doc>, i: nat)
    requires i < |docs| && DocsOk(kind, docs)
    ensures DocsOk(kind, docs[..i] + docs[i + 1..])
  {
    var r := docs[..i] + docs[i + 1..];
    forall j | 0 <= j < |r| ensures r[j] == docs[if j < i then j else j + 1] {
    }
    forall a, b | 0 <= a < b < |r| ensures r[a].id != r[b].id {
      assert r[a] == docs[if a < i then a else a + 1];
      assert r[b] == docs[if b < i then b else b + 1];
    }
  }

  // ----- what the operations promise -----

  /** A document appended under a new id is the one found by that id. */
  lemma AppendedIsFound(docs: seq<Doc>, d: Doc)
    requires IndexOfId(docs, d.id).None?
    ensures FindId(docs + [d], d.id) == Some(d)
  {
    var after := docs + [d];
    assert after[|docs|].id == d.id;
    assert IndexOfId(after, d.id) == Some(|docs|);
  }

  /** A document just created is found by its id, as stored. */
  lemma InsertThenFind(kind: Kind, docs: seq<Doc>, data: Object, id: string, now: int)
    requires InsertResult(kind, docs, data, id, now).Success?
    ensures FindId(AfterInsert(kind, docs, data, id, now), id) == Some(Doc(id, Prepare(kind, data, now)))
  {
    var d := Doc(id, Prepare(kind, data, now));
    assert AfterInsert(kind, docs, data, id, now) == docs + [d];
    AppendedIsFound(docs, d);
  }

  /** Deleting removes the one document with that id, so a second delete finds nothing. */
  lemma DeleteIsOnce(docs: seq<Doc>, id: string)
    requires DistinctIds(docs)
    ensures FindId(AfterDelete(docs, id), id).None?
  {
    match IndexOfId(docs, id)
    case None =>
    case Some(i) =>
      var r := docs[..i] + docs[i + 1..];
      forall j | 0 <= j < |r| ensures r[j].id != id {
        if j >= i {
          assert r[j] == docs[j + 1];
        }
      }
  }

  /** An accepted update sets every schema path it names and leaves every other schema path as it was. */
  lemma UpdateSetsFields(kind: Kind, docs: seq<Doc>, id: string, updates: Object, now: int, p: string)
    requires UpdateResult(kind, docs, id, updates, now).Success?
    requires IndexOfId(docs, id).Some?
    requires p in SchemaPaths(kind)
    ensures var old_ := docs[IndexOfId(docs, id).value];
      var new_ := UpdateResult(kind, docs, id, updates, now).value.value;
      && new_.id == id
      && (p in updates ==> p in new_.fields && new_.fields[p] == updates[p])
      && (p !in updates && p in old_.fields ==> p in new_.fields && new_.fields[p] == old_.fields[p])
      && (p !in updates && p !in old_.fields ==> p !in new_.fields)
      && new_.fields["updatedAt"] == Date(now)
  {
    StampsAreNotPaths(kind);
    var i := IndexOfId(docs, id).value;
    var u := Strict(kind, updates);
    assert UpdateIssues(RulesOf(kind), u) == [];
    assert UpdateResult(kind, docs, id, updates, now).value.value
        == Doc(id, docs[i].fields + u + map["updatedAt" := Date(now)]);
  }

  // ----- the collection object -----

  class Collection {
    const kind: Kind
    var docs: seq<Doc>

    ghost predicate Valid()
      reads this
    {
      DocsOk(kind, docs)
    }

    constructor(kind: Kind)
      ensures this.kind == kind && docs == [] && Valid()
    {
      this.kind := kind;
      docs := [];
    }

    /** `Model.findById(id)`, by a linear scan. */
    method FindById(id: string) returns (r: Option<Doc>)
      ensures r == FindId(docs, id)
    {
      var i := 0;
      while i < |docs|
        invariant 0 <= i <= |docs|
        invariant forall j :: 0 <= j < i ==> docs[j].id != id
      {
        if docs[i].id == id {
          assert IndexOfId(docs, id) == Some(i);
          return Some(docs[i]);
        }
        i := i + 1;
      }
      return None;
    }

    /** `Model.find(filter)`, in collection order. */
    method Find(filter: Object) returns (r: seq<Doc>)
      ensures r == Select(docs, filter)
    {
      r := [];
      var i := 0;
      while i < |docs|
        invariant 0 <= i <= |docs|
        invariant r == Select(docs[..i], filter)
      {
        SelectAppend(docs[..i], docs[i], filter);
        assert docs[..i + 1] == docs[..i] + [docs[i]];
        if Matches(docs[i], filter) {
          r := r + [docs[i]];
        }
        i := i + 1;
      }
      assert docs[..i] == docs;
    }

    method Create(data: Object, id: string, now: int) returns (r: Result<Doc, Error>)
      requires Valid()
      modifies this
      ensures Valid()
      ensures r == InsertResult(kind, old(docs), data, id, now)
      ensures docs == AfterInsert(kind, old(docs), data, id, now)
    {
      InsertKeepsOk(kind, docs, data, id, now);
      r := InsertResult(kind, docs, data, id, now);
      if r.Success? {
        docs := docs + [r.value];
      }
    }

    method FindByIdAndUpdate(id: string, updates: Object, now: int) returns (r: Result<Option<Doc>, Error>)
      requires Valid()
      modifies this
      ensures Valid()
      ensures r == UpdateResult(kind, old(docs), id, updates, now)
      ensures docs == AfterUpdate(kind, old(docs), id, updates, now)
    {
      UpdateKeepsOk(kind, docs, id, updates, now);
      r := UpdateResult(kind, docs, id, updates, now);
      docs := AfterUpdate(kind, docs, id, updates, now);
    }

    method FindByIdAndDelete(id: string) returns (r: Option<Doc>)
      requires Valid()
      modifies this
      ensures Valid()
      ensures r == FindId(old(docs), id)
      ensures docs == AfterDelete(old(docs), id)
    {
      DeleteKeepsOk(kind, docs, id);
      r := FindById(id);
      docs := AfterDelete(docs, id);
    }
  }
}

=== FILE: strings.dfy ===
/** The few JavaScript string operations the application relies on. */
module Strings {

  /** `s.startsWith(prefix)` */
  predicate StartsWith(s: string, prefix: string) {
    |prefix| <= |s| && s[..|prefix|] == prefix
  }

  /**
   * `s.split(c)` for a one-character separator: the maximal pieces between
   * separators, so there is always at least one piece and none contains `c`.
   */
  function Split(s: string, c: char): (parts: seq<string>)
    ensures |parts| >= 1
    ensures forall i :: 0 <= i < |parts| ==> c !in parts[i]
    decreases |s|
  {
    if s == [] then [[]]
    else
      var rest := Split(s[1..], c);
      if s[0] == c then [[]] + rest
      else [[s[0]] + rest[0]] + rest[1..]
  }

  /** Whether JavaScript stores `c` as a surrogate pair: every character outside the Basic Multilingual Plane. */
  predicate Astral(c: char) {
    c as int >= 0x1_0000
  }

  /**
   * `s.length`: JavaScript counts UTF-16 code units, one for each character
   * of the Basic Multilingual Plane and two for each astral character.
   */
  function Utf16Length(s: string): (n: nat)
    ensures |s| <= n <= 2 * |s|
    ensures n == |s| <==> forall i :: 0 <= i < |s| ==> !Astral(s[i])
  {
    if s == [] then 0
    else (if Astral(s[0]) then 2 else 1) + Utf16Length(s[1..])
  }

  /** `parts.join(c)`; the join of no parts is the empty string. */
  function Join(parts: seq<string>, c: char): string
  {
    if parts == [] then []
    else if |parts| == 1 then parts[0]
    else parts[0] + [c] + Join(parts[1..], c)
  }

  /** Joining the pieces of a split restores the string. */
  lemma {:induction false} JoinSplit(s: string, c: char)
    ensures Join(Split(s, c), c) == s
    decreases |s|
  {
    if s != [] {
      var rest := Split(s[1..], c);
      JoinSplit(s[1..], c);
      if s[0] == c {
        assert Split(s, c) == [[]] + rest;
        assert ([[]] + rest)[1..] == rest;
      } else if |rest| == 1 {
        assert Join(rest, c) == rest[0];
      } else {
        var parts := Split(s, c);
        assert parts[1..] == rest[1..];
        assert Join(rest, c) == rest[0] + [c] + Join(rest[1..], c);
        assert s == [s[0]] + s[1..];
      }
    }
  }

  /** A string without the separator is a single piece. */
  lemma {:induction false} SplitWithout(s: string, c: char)
    requires c !in s
    ensures Split(s, c) == [s]
    decreases |s|
  {
    if s != [] {
      assert s[0] != c;
      SplitWithout(s[1..], c);
      assert [s[0]] + s[1..] == s;
    }
  }

  /** The first separator ends the first piece. */
  lemma {:induction false} SplitAtFirst(a: string, c: char, b: string)
    requires c !in a
    ensures Split(a + [c] + b, c) == [a] + Split(b, c)
    decreases |a|
  {
    var s := a + [c] + b;
    if a == [] {
      assert s[0] == c && s[1..] == b;
    } else {
      assert s[0] == a[0] && a[0] != c;
      assert s[1..] == a[1..] + [c] + b;
      SplitAtFirst(a[1..], c, b);
      assert [a[0]] + a[1..] == a;
    }
  }

  /** Splitting a join of separator-free pieces gives the pieces back. */
  lemma {:induction false} SplitJoin(parts: seq<string>, c: char)
    requires |parts| >= 1
    requires forall i :: 0 <= i < |parts| ==> c !in parts[i]
    ensures Split(Join(parts, c), c) == parts
    decreases |parts|
  {
    if |parts| == 1 {
      SplitWithout(parts[0], c);
    } else {
      SplitJoin(parts[1..], c);
      SplitAtFirst(parts[0], c, Join(parts[1..], c));
      assert [parts[0]] + parts[1..] == parts;
    }
  }
}

=== FILE: transaction_controller.dfy ===
/**
 * The transaction controllers. Each copies what it needs from the request,
 * calls one service and turns the answer into a response or a call of `next`.
 * They attach no user and list or summarise every transaction unfiltered.
 */
module TransactionController {
  import opened Wrappers
  import opened Values
  import opened Mongoose
  import opened Errors
  import opened Store
  import opened Http
  import opened TransactionServices
  import TransactionModel
  import TransactionValidation
  import Strings

  const NotFoundMessage := "Transaction not found"

  /** `if (data.date) data.date = new Date(data.date)`, with `parseDate` standing for `new Date(...)`. */
  function WithParsedDate(data: Object, parseDate: Value -> int): (d: Object)
    ensures d.Keys == data.Keys
    ensures forall k :: k in data && k != "date" ==> d[k] == data[k]
    ensures "date" in data ==> d["date"] == if Truthy(data["date"]) then Date(parseDate(data["date"])) else data["date"]
  {
    if "date" in data && Truthy(data["date"]) then data["date" := Date(parseDate(data["date"]))] else data
  }

  function SummaryObject(s: Summary): Value {
    Obj(map["income" := Num(s.income), "expense" := Num(s.expense), "net" := Num(s.net)])
  }

  method CreateTransactionController(req: Request, db: Collection, id: string, now: int, parseDate: Value -> int)
    returns (o: Outcome)
    requires db.kind == Transactions && db.Valid()
    modifies db
    ensures db.Valid()
    ensures db.docs == AfterInsert(Transactions, old(db.docs), WithParsedDate(Spread(req.body), parseDate), id, now)
    ensures var c := InsertResult(Transactions, old(db.docs), WithParsedDate(Spread(req.body), parseDate), id, now);
      o == CreatedOr(if c.Success? then Success(ToObject(c.value)) else Failure(c.error))
  {
    var data := Spread(req.body);
    if "date" in data && Truthy(data["date"]) {
      data := data["date" := Date(parseDate(data["date"]))];
    }
    var created := CreateTransaction(db, data, id, now);
    o := CreatedOr(created);
  }

  method GetAllTransactionsController(db: Collection) returns (o: Outcome)
    requires db.kind == Transactions
    ensures o == Ok(Listing(ToObjects(SortNewestFirst(Transactions, db.docs))))
  {
    var all := GetAllTransactions(db, map[]);
    SelectAll(db.docs);
    o := Ok(Listing(all));
  }

  method GetTransactionByIdController(req: Request, db: Collection) returns (o: Outcome)
    ensures var id := IdParam(req.params);
      o.Respond? <==> id.Some? && exists j :: 0 <= j < |db.docs| && db.docs[j].id == id.value
    ensures var id := IdParam(req.params);
      o.Respond? ==> id.Some? && exists j :: 0 <= j < |db.docs| && db.docs[j].id == id.value && o == Ok(Obj(ToObject(db.docs[j])))
    ensures o.Next? ==> o == Next(Some(StatusError(NotFoundMessage, 404)))
  {
    var id := IdParam(req.params);
    if id.None? {
      return FoundOr(None, NotFoundMessage);
    }
    var found := GetTransactionById(db, id.value);
    o := FoundOr(found, NotFoundMessage);
  }

  method UpdateTransactionController(req: Request, db: Collection, now: int, parseDate: Value -> int) returns (o: Outcome)
    requires db.kind == Transactions && db.Valid()
    modifies db
    ensures db.Valid()
    ensures var id := IdParam(req.params);
      var updates := WithParsedDate(Spread(req.body), parseDate);
      && (id.None? ==> o == Next(Some(StatusError(NotFoundMessage, 404))) && db.docs == old(db.docs))
      && (id.Some? ==>
            var u := UpdateResult(Transactions, old(db.docs), id.value, updates, now);
            && db.docs == AfterUpdate(Transactions, old(db.docs), id.value, updates, now)
            && (u.Failure? ==> o == Next(Some(u.error)))
            && (u.Success? && u.value.None? ==> o == Next(Some(StatusError(NotFoundMessage, 404))))
            && (u.Success? && u.value.Some? ==> o == Ok(Obj(ToObject(u.value.value)))))
  {
    var id := IdParam(req.params);
    var updates := Spread(req.body);
    if "date" in updates && Truthy(updates["date"]) {
      updates := updates["date" := Date(parseDate(updates["date"]))];
    }
    if id.None? {
      return FoundOr(None, NotFoundMessage);
    }
    var updated := UpdateTransaction(db, id.value, updates, now);
    o := UpdatedOr(updated, NotFoundMessage);
  }

  method DeleteTransactionController(req: Request, db: Collection) returns (o: Outcome)
    requires db.Valid()
    modifies db
    ensures db.Valid()
    ensures var id := IdParam(req.params);
      && (o == Respond(Response(204, None)) <==> id.Some? && exists j :: 0 <= j < |old(db.docs)| && old(db.docs)[j].id == id.value)
      && (o != Respond(Response(204, None)) ==> o == Next(Some(StatusError(NotFoundMessage, 404))))
      && (id.Some? ==> db.docs == AfterDelete(old(db.docs), id.value))
  {
    var id := IdParam(req.params);
    if id.None? {
      return DeletedOr(false, NotFoundMessage);
    }
    var deleted := DeleteTransaction(db, id.value);
    o := DeletedOr(deleted, NotFoundMessage);
  }

  method GetSummaryController(db: Collection) returns (o: Outcome)
    ensures o == Ok(SummaryObject(SummaryOf(db.docs)))
  {
    var summary := GetSummary(db, map[]);
    SelectAll(db.docs);
    o := Ok(SummaryObject(summary));
  }

  // ----- from the request schema to the stored document -----

  /**
   * A body the create schema accepts, once its date is converted, is a valid
   * transaction document, unless its date is the empty string.
   */
  lemma ValidatedBodyIsStored(b: Object, parseDate: Value -> int, now: int)
    requires TransactionValidation.CreateBodyOk(b)
    requires !("date" in b && b["date"] == Str(""))
    ensures DocValid(TransactionModel.Rules, Prepare(Transactions, WithParsedDate(b, parseDate), now))
  {
    var data := WithParsedDate(b, parseDate);
    var d := Prepare(Transactions, data, now);
    assert d["user"] == b["user"] && d["type"] == b["type"] && d["category"] == b["category"] && d["amount"] == b["amount"];
    assert "date" in d && d["date"].Date?;
    assert "note" in d ==> d["note"] == b["note"];
    assert Strings.Utf16Length(b["category"].s) <= 2 * |b["category"].s|;
    assert TransactionModel.TransactionDocOk(d);
    TransactionModel.TransactionRulesMeaning(d);
  }

  /**
   * An empty date passes the create schema, is falsy so it is not converted,
   * and is then no date at all to the model: the insert fails validation
   * instead of taking the default date.
   */
  lemma EmptyDateFailsInModel(b: Object, parseDate: Value -> int, now: int)
    requires TransactionValidation.CreateBodyOk(b)
    requires "date" in b && b["date"] == Str("")
    ensures !DocValid(TransactionModel.Rules, Prepare(Transactions, WithParsedDate(b, parseDate), now))
  {
    var d := Prepare(Transactions, WithParsedDate(b, parseDate), now);
    assert d["date"] == Str("");
    TransactionModel.TransactionRulesMeaning(d);
  }
}

=== FILE: transaction_model.dfy ===
/** The Transaction document model: its schema paths, the date default and a stored transaction. */
module TransactionModel {
  import opened Wrappers
  import opened Values
  import opened Mongoose
  import TransactionValidation

  const ModelName := "Transaction"
  const Kinds: seq<string> := ["income", "expense"]

  /** The schema paths, in declaration order; `timestamps` is handled by the store. */
  const Rules: seq<PathRule> := [
    PathRule("user", ObjectIdType, true, None, None, None),
    PathRule("type", StringType, true, None, None, Some(Kinds)),
    PathRule("category", StringType, true, None, None, None),
    PathRule("amount", NumberType, true, Some(0.0), None, None),
    PathRule("date", DateType, true, None, None, None),
    PathRule("note", StringType, false, None, None, None)
  ]

  /** `default: Date.now`: a document created without a date is dated at the clock reading `now`. */
  function WithDefaults(d: Object, now: int): (r: Object)
    ensures r.Keys == d.Keys + {"date"}
    ensures "date" in d ==> r["date"] == d["date"]
    ensures "date" !in d ==> r["date"] == Date(now)
    ensures forall k :: k in d && k != "date" ==> r[k] == d[k]
  {
    if "date" in d then d else d["date" := Date(now)]
  }

  /** A transaction document the schema accepts, stated directly. */
  predicate TransactionDocOk(d: Object) {
    && "user" in d && d["user"].Str?
    && "type" in d && d["type"].Str? && d["type"].s in Kinds
    && "category" in d && d["category"].Str? && d["category"].s != ""
    && "amount" in d && d["amount"].Num? && d["amount"].n >= 0.0
    && "date" in d && d["date"].Date?
    && ("note" in d ==> d["note"].Str? || d["note"] == Null)
  }

  lemma TransactionRulesMeaning(d: Object)
    ensures DocValid(Rules, d) <==> TransactionDocOk(d)
  {
    DocIssuesEmpty(Rules, d);
    if DocValid(Rules, d) {
      assert PathAdmits(Rules[0], Get(d, Rules[0].path));
      assert PathAdmits(Rules[1], Get(d, Rules[1].path));
      assert PathAdmits(Rules[2], Get(d, Rules[2].path));
      assert PathAdmits(Rules[3], Get(d, Rules[3].path));
      assert PathAdmits(Rules[4], Get(d, Rules[4].path));
      assert PathAdmits(Rules[5], Get(d, Rules[5].path));
    }
    if TransactionDocOk(d) {
      forall i | 0 <= i < |Rules| ensures PathAdmits(Rules[i], Get(d, Rules[i].path)) {
      }
    }
  }

  /**
   * The document layer is weaker than the request schema: an amount of zero
   * is a valid document, while the create schema demands a positive amount.
   */
  lemma ZeroAmountIsStorable(d: Object)
    requires TransactionDocOk(d)
    ensures DocValid(Rules, d["amount" := Num(0.0)])
    ensures !TransactionValidation.IsAmount(Num(0.0))
  {
    TransactionRulesMeaning(d["amount" := Num(0.0)]);
  }

  /** A type outside the enum is an `enum` error on the type path. */
  lemma UnknownTypeIsEnumError(d: Object, t: string)
    requires t != "" && t !in Kinds
    requires "type" in d && d["type"] == Str(t)
    ensures DbFieldError("type", "enum", "") in DocIssues(Rules, d)
  {
    assert PathIssues(Rules[1], Get(d, "type")) == [DbFieldError("type", "enum", "")];
    assert DocIssues(Rules, d) == PathIssues(Rules[0], Get(d, "user")) + DocIssues(Rules[1..], d);
    assert DocIssues(Rules[1..], d) == PathIssues(Rules[1], Get(d, "type")) + DocIssues(Rules[2..], d);
  }
}

=== FILE: transaction_services.dfy ===
/**
 * The transaction services over the transaction collection, and the
 * income/expense summary. The services use no cache.
 */
module TransactionServices {
  import opened Wrappers
  import opened Values
  import opened Mongoose
  import opened Errors
  import opened Store
  import TransactionModel

  datatype Summary = Summary(income: real, expense: real, net: real)

  /** What one transaction adds to the running total of the type `kind`. */
  function AmountFor(d: Doc, kind: string): real {
    if "type" in d.fields && d.fields["type"] == Str(kind) && "amount" in d.fields && d.fields["amount"].Num?
    then d.fields["amount"].n
    else 0.0
  }

  /** The sum of the amounts of the transactions of type `kind`. */
  function Total(txs: seq<Doc>, kind: string): real {
    if txs == [] then 0.0 else Total(txs[..|txs| - 1], kind) + AmountFor(txs[|txs| - 1], kind)
  }

  /** The summary of a set of transactions: both totals and their difference. */
  function SummaryOf(txs: seq<Doc>): (s: Summary)
    ensures s.net == s.income - s.expense
  {
    var income := Total(txs, "income");
    var expense := Total(txs, "expense");
    Summary(income, expense, income - expense)
  }

  /** `createTransaction(data)`: the stored record, or the error `create` raised. */
  method CreateTransaction(db: Collection, data: Object, id: string, now: int) returns (r: Result<Object, Error>)
    requires db.kind == Transactions && db.Valid()
    modifies db
    ensures db.Valid()
    ensures var c := InsertResult(Transactions, old(db.docs), data, id, now);
      && (r.Success? <==> c.Success?)
      && (r.Success? ==> r.value == ToObject(c.value))
      && (r.Failure? ==> r.error == c.error)
    ensures db.docs == AfterInsert(Transactions, old(db.docs), data, id, now)
  {
    var created := db.Create(data, id, now);
    match created
    case Success(t) => r := Success(ToObject(t));
    case Failure(e) => r := Failure(e);
  }

  /** `getAllTransactions(filter)`: the matching records, newest first. */
  method GetAllTransactions(db: Collection, filter: Object) returns (r: seq<Object>)
    requires db.kind == Transactions
    ensures r == ToObjects(SortNewestFirst(Transactions, Select(db.docs, filter)))
  {
    var found := db.Find(filter);
    r := ToObjects(SortNewestFirst(Transactions, found));
  }

  /** `getTransactionById(id)`: null exactly when no record has that id. */
  method GetTransactionById(db: Collection, id: string) returns (r: Option<Object>)
    ensures r.None? <==> forall j :: 0 <= j < |db.docs| ==> db.docs[j].id != id
    ensures r.Some? ==> exists j :: 0 <= j < |db.docs| && db.docs[j].id == id && r.value == ToObject(db.docs[j])
  {
    var t := db.FindById(id);
    if t.None? {
      return None;
    }
    r := Some(ToObject(t.value));
  }

  /** `updateTransaction(id, updates)`: the updated record, null when absent, or the validation error. */
  method UpdateTransaction(db: Collection, id: string, updates: Object, now: int) returns (r: Result<Option<Object>, Error>)
    requires db.kind == Transactions && db.Valid()
    modifies db
    ensures db.Valid()
    ensures var u := UpdateResult(Transactions, old(db.docs), id, updates, now);
      && (r.Failure? <==> u.Failure?)
      && (r.Failure? ==> r.error == u.error)
      && (r.Success? ==> (r.value.None? <==> u.value.None?))
      && (r.Success? && r.value.Some? ==> r.value.value == ToObject(u.value.value))
    ensures db.docs == AfterUpdate(Transactions, old(db.docs), id, updates, now)
  {
    var updated := db.FindByIdAndUpdate(id, updates, now);
    match updated
    case Failure(e) => r := Failure(e);
    case Success(None) => r := Success(None);
    case Success(Some(t)) => r := Success(Some(ToObject(t)));
  }

  /** `deleteTransaction(id)`: true exactly when a record was removed. */
  method DeleteTransaction(db: Collection, id: string) returns (deleted: bool)
    requires db.Valid()
    modifies db
    ensures db.Valid()
    ensures deleted <==> exists j :: 0 <= j < |old(db.docs)| && old(db.docs)[j].id == id
    ensures db.docs == AfterDelete(old(db.docs), id)
  {
    var removed := db.FindByIdAndDelete(id);
    deleted := removed.Some?;
  }

  /** `getSummary(filter)`: one pass over the matching transactions, adding up each type. */
  method GetSummary(db: Collection, filter: Object) returns (s: Summary)
    ensures s == SummaryOf(Select(db.docs, filter))
  {
    var txs := db.Find(filter);
    var income := 0.0;
    var expense := 0.0;
    var i := 0;
    while i < |txs|
      invariant 0 <= i <= |txs|
      invariant income == Total(txs[..i], "income")
      invariant expense == Total(txs[..i], "expense")
    {
      assert txs[..i + 1][..i] == txs[..i];
      var tx := txs[i].fields;
      if "type" in tx && tx["type"] == Str("income") {
        if "amount" in tx && tx["amount"].Num? {
          income := income + tx["amount"].n;
        }
      } else if "type" in tx && tx["type"] == Str("expense") {
        if "amount" in tx && tx["amount"].Num? {
          expense := expense + tx["amount"].n;
        }
      }
      i := i + 1;
    }
    assert txs[..i] == txs;
    s := Summary(income, expense, income - expense);
  }

  // ----- what the summary promises -----

  /** Totals add up over concatenation. */
  lemma {:induction false} TotalConcat(a: seq<Doc>, b: seq<Doc>, kind: string)
    ensures Total(a + b, kind) == Total(a, kind) + Total(b, kind)
  {
    if b != [] {
      var ab := a + b;
      assert ab[..|ab| - 1] == a + b[..|b| - 1];
      TotalConcat(a, b[..|b| - 1], kind);
    } else {
      assert a + b == a;
    }
  }

  /** Over stored transactions, whose amounts are never negative, both totals are non-negative. */
  lemma {:induction false} TotalNonNegative(txs: seq<Doc>, kind: string)
    requires forall i :: 0 <= i < |txs| ==> DocOk(Transactions, txs[i])
    ensures Total(txs, kind) >= 0.0
  {
    if txs != [] {
      var last := txs[|txs| - 1];
      TransactionModel.TransactionRulesMeaning(last.fields);
      TotalNonNegative(txs[..|txs| - 1], kind);
    }
  }

  /** A transaction of any other type adds to neither total. */
  lemma OtherTypeIgnored(txs: seq<Doc>, d: Doc)
    requires "type" !in d.fields || (d.fields["type"] != Str("income") && d.fields["type"] != Str("expense"))
    ensures SummaryOf(txs + [d]) == SummaryOf(txs)
  {
    assert (txs + [d])[..|txs|] == txs;
  }

  /** The empty filter counts every stored transaction; an empty collection sums to zero. */
  lemma SummaryOfAll(docs: seq<Doc>)
    ensures SummaryOf(Select(docs, map[])) == SummaryOf(docs)
    ensures SummaryOf([]) == Summary(0.0, 0.0, 0.0)
  {
    SelectAll(docs);
  }

  /** An income of 200 and an expense of 50 give a net of 150. */
  lemma SummaryExample(a: Doc, b: Doc)
    requires a.fields == map["type" := Str("income"), "amount" := Num(200.0)]
    requires b.fields == map["type" := Str("expense"), "amount" := Num(50.0)]
    ensures SummaryOf([a, b]) == Summary(200.0, 50.0, 150.0)
  {
    assert [a, b][..1] == [a];
    assert [a][..0] == [];
    assert "income" != "expense";
    assert AmountFor(a, "income") == 200.0 && AmountFor(a, "expense") == 0.0;
    assert AmountFor(b, "income") == 0.0 && AmountFor(b, "expense") == 50.0;
    assert Total([a, b], "income") == Total([a], "income") + AmountFor(b, "income");
    assert Total([a, b], "expense") == Total([a], "expense") + AmountFor(b, "expense");
  }

  /** Deleting the same id twice: the second delete removes nothing. */
  lemma SecondDeleteFindsNothing(docs: seq<Doc>, id: string)
    requires DocsOk(Transactions, docs)
    ensures FindId(AfterDelete(docs, id), id).None?
  {
    DeleteIsOnce(docs, id);
  }
}

=== FILE: transaction_validation.dfy ===
/** The request schemas of the transaction routes. */
module TransactionValidation {
  import opened Wrappers
  import opened Values
  import opened Zod
  import Strings

  const Kinds := ["income", "expense"]
  const NonEmptyUpdateMessage := "At least one field must be provided for update"

  /** POST /transactions */
  const CreateTransactionSchema := Schema("body", Shape([
    Field("user", TextLength(24, "Invalid user ID"), false),
    Field("type", OneOf(Kinds), false),
    Field("category", TextMin(1, "Category is required"), false),
    Field("amount", Positive("Amount must be positive"), false),
    Field("date", Text, true),
    Field("note", Text, true)
  ], None))

  /** The `:id` path parameter */
  const TransactionIdSchema := Schema("params", Shape([
    Field("id", TextLength(24, "Invalid transaction ID"), false)
  ], None))

  /** PATCH /transactions/:id */
  const UpdateTransactionSchema := Schema("body", Shape([
    Field("type", OneOf(Kinds), true),
    Field("category", TextMin(1, "Category is required"), true),
    Field("amount", Positive("Amount must be positive"), true),
    Field("date", Text, true),
    Field("note", Text, true)
  ], Some(NonEmptyUpdateMessage)))

  predicate IsKind(v: Value) { v.Str? && (v.s == "income" || v.s == "expense") }
  predicate IsCategory(v: Value) { v.Str? && Strings.Utf16Length(v.s) >= 1 }
  predicate IsAmount(v: Value) { v.Num? && v.n > 0.0 }

  /** A create body the schema accepts: the date is still text here, it is not parsed. */
  predicate CreateBodyOk(b: Object) {
    && "user" in b && b["user"].Str? && Strings.Utf16Length(b["user"].s) == 24
    && "type" in b && IsKind(b["type"])
    && "category" in b && IsCategory(b["category"])
    && "amount" in b && IsAmount(b["amount"])
    && ("date" in b ==> b["date"].Str?)
    && ("note" in b ==> b["note"].Str?)
  }

  /** An update body: every field optional with its create bound, and at least one present. */
  predicate UpdateBodyOk(b: Object) {
    && ("type" in b ==> IsKind(b["type"]))
    && ("category" in b ==> IsCategory(b["category"]))
    && ("amount" in b ==> IsAmount(b["amount"]))
    && ("date" in b ==> b["date"].Str?)
    && ("note" in b ==> b["note"].Str?)
    && ("type" in b || "category" in b || "amount" in b || "date" in b || "note" in b)
  }

  lemma CreateTransactionSchemaMeaning(input: Object)
    ensures SafeParse(CreateTransactionSchema, input).Success?
        <==> "body" in input && input["body"].Obj? && CreateBodyOk(input["body"].fields)
  {
    SafeParseMeaning(CreateTransactionSchema, input);
    if "body" in input && input["body"].Obj? {
      CreateShapeMeaning(input["body"].fields);
    }
  }

  /** The create shape accepts a body exactly when it is a create body. */
  lemma CreateShapeMeaning(b: Object)
    ensures ShapeAccepts(CreateTransactionSchema.shape, b) <==> CreateBodyOk(b)
  {
    var fs := CreateTransactionSchema.shape.fields;
    if CreateBodyOk(b) {
      forall i | 0 <= i < |fs| ensures FieldOk(fs[i], b) {
        assert i == 0 || i == 1 || i == 2 || i == 3 || i == 4 || i == 5;
      }
    }
    if ShapeAccepts(CreateTransactionSchema.shape, b) {
      assert FieldOk(fs[0], b) && FieldOk(fs[1], b) && FieldOk(fs[2], b);
      assert FieldOk(fs[3], b) && FieldOk(fs[4], b) && FieldOk(fs[5], b);
    }
  }

  lemma UpdateTransactionSchemaMeaning(input: Object)
    ensures SafeParse(UpdateTransactionSchema, input).Success?
        <==> "body" in input && input["body"].Obj? && UpdateBodyOk(input["body"].fields)
  {
    SafeParseMeaning(UpdateTransactionSchema, input);
    if "body" in input && input["body"].Obj? {
      UpdateShapeMeaning(input["body"].fields);
    }
  }

  /** The update shape accepts a body exactly when it is a update body. */
  lemma UpdateShapeMeaning(b: Object)
    ensures ShapeAccepts(UpdateTransactionSchema.shape, b) <==> UpdateBodyOk(b)
  {
    var fs := UpdateTransactionSchema.shape.fields;
    if UpdateBodyOk(b) {
      forall i | 0 <= i < |fs| ensures FieldOk(fs[i], b) {
        assert i == 0 || i == 1 || i == 2 || i == 3 || i == 4;
      }
      if "type" in b { assert fs[0].key in b; }
      else if "category" in b { assert fs[1].key in b; }
      else if "amount" in b { assert fs[2].key in b; }
      else if "date" in b { assert fs[3].key in b; }
      else { assert fs[4].key in b; }
    }
    if ShapeAccepts(UpdateTransactionSchema.shape, b) {
      assert FieldOk(fs[0], b) && FieldOk(fs[1], b) && FieldOk(fs[2], b);
      assert FieldOk(fs[3], b) && FieldOk(fs[4], b);
      var i :| 0 <= i < |fs| && fs[i].key in b;
      assert i == 0 || i == 1 || i == 2 || i == 3 || i == 4;
    }
  }

  lemma TransactionIdSchemaMeaning(input: Object)
    ensures SafeParse(TransactionIdSchema, input).Success?
        <==> "params" in input && input["params"].Obj? && "id" in input["params"].fields
             && input["params"].fields["id"].Str? && Strings.Utf16Length(input["params"].fields["id"].s) == 24
  {
    SafeParseMeaning(TransactionIdSchema, input);
    if "params" in input && input["params"].Obj? {
      assert TransactionIdSchema.shape.fields[0] == Field("id", TextLength(24, "Invalid transaction ID"), false);
    }
  }

  /** An update body with no recognised field (here: an unknown key only) is refused by the refinement. */
  lemma UpdateWithoutFieldsRejected(extra: string, v: Value)
    requires extra !in {"type", "category", "amount", "date", "note"}
    ensures SafeParse(UpdateTransactionSchema, map["body" := Obj(map[extra := v])])
         == Failure([Issue(["body"], Custom, NonEmptyUpdateMessage)])
  {
    var b := map[extra := v];
    var fs := UpdateTransactionSchema.shape.fields;
    assert FieldIssues(["body"], fs[4..], b) == [];
    assert FieldIssues(["body"], fs[3..], b) == [];
    assert FieldIssues(["body"], fs[2..], b) == [];
    assert FieldIssues(["body"], fs[1..], b) == [];
    assert FieldIssues(["body"], fs, b) == [];
    assert Known(fs, b).Keys == {};
  }

  /** A zero amount is reported with the schema's own message. */
  lemma ZeroAmountRejected(b: Object)
    requires "amount" in b && b["amount"] == Num(0.0)
    ensures var r := SafeParse(CreateTransactionSchema, map["body" := Obj(b)]);
      r.Failure? && Issue(["body", "amount"], TooSmall, "Amount must be positive") in r.error
  {
    var fs := CreateTransactionSchema.shape.fields;
    FieldIssuesInclude(["body"], fs, b, 3);
    assert fs[3] == Field("amount", Positive("Amount must be positive"), false);
    assert ["body"] + ["amount"] == ["body", "amount"];
    assert Issue(["body", "amount"], TooSmall, "Amount must be positive") in OneFieldIssues(["body"], fs[3], b);
  }
}

=== FILE: user_controller.dfy ===
/**
 * The user controllers. Unlike the other routes they validate the request
 * themselves and forward a 400 error carrying the zod issues as `details`.
 */
module UserController {
  import opened Wrappers
  import opened Values
  import opened Zod
  import Strings
  import opened Errors
  import opened Store
  import opened Users
  import opened Jwt
  import opened Http
  import opened UserServices
  import opened UserValidation
  import ErrorHandler
  import Auth
  import Validator

  const ValidationFailedMessage := "Validation failed"
  const CreatedMessage := "User created successfully"
  const NotFoundMessage := "User not found"

  /** `schema.safeParse({ [facet]: v })`: the parsed facet, or the 400 error the controller forwards. */
  function ParseFacet(schema: Schema, v: Option<Value>): (r: Result<Object, Error>)
    ensures r.Success? <==> SafeParse(schema, Validator.Put(map[], schema.facet, v)).Success?
    ensures r.Success? ==> v.Some? && v.value.Obj? && r.value == Known(schema.shape.fields, v.value.fields)
    ensures r.Failure? ==>
      && r.error.message == ValidationFailedMessage
      && r.error.statusCode == Some(400)
      && r.error.details == Some(SafeParse(schema, Validator.Put(map[], schema.facet, v)).error)
  {
    match SafeParse(schema, Validator.Put(map[], schema.facet, v))
    case Success(out) => Success(out[schema.facet].fields)
    case Failure(issues) => Failure(StatusError(ValidationFailedMessage, 400).(details := Some(issues)))
  }

  /** `res.json(result)` for a sign-in: `{ user, token }`. */
  function SessionObject(s: Session): Value {
    Obj(map["user" := Obj(s.user), "token" := Str(s.token)])
  }

  method CreateUserController(req: Request, db: UserStore, id: string, crypto: Crypto) returns (o: Outcome)
    requires db.Valid()
    modifies db
    ensures db.Valid()
    ensures var p := ParseFacet(CreateUserSchema, req.body);
      && (p.Failure? ==> o == Next(Some(p.error)) && db.docs == old(db.docs))
      && (p.Success? ==>
            var c := CreateUserResult(old(db.docs), p.value, id, crypto);
            && (c.Success? ==> o == Respond(Response(201, Some(Obj(map["message" := Str(CreatedMessage)]))))
                               && db.docs == old(db.docs) + [c.value])
            && (c.Failure? ==> o == Next(Some(c.error)) && db.docs == old(db.docs)))
  {
    var parsed := ParseFacet(CreateUserSchema, req.body);
    if parsed.Failure? {
      return Next(Some(parsed.error));
    }
    var created := CreateUser(db, parsed.value, id, crypto);
    if created.Failure? {
      return Next(Some(created.error));
    }
    o := Respond(Response(201, Some(Obj(map["message" := Str(CreatedMessage)]))));
  }

  method SigninUserController(req: Request, db: UserStore, crypto: Crypto, tokens: Tokens, secret: string)
    returns (o: Outcome)
    ensures var p := ParseFacet(SigninUserSchema, req.body);
      && (p.Failure? ==> o == Next(Some(p.error)))
      && (p.Success? ==>
            var s := SigninResult(db.docs, p.value, crypto, tokens, secret);
            && (s.Success? ==> o == Ok(SessionObject(s.value)))
            && (s.Failure? ==> o == Next(Some(s.error))))
  {
    var parsed := ParseFacet(SigninUserSchema, req.body);
    if parsed.Failure? {
      return Next(Some(parsed.error));
    }
    var session := SigninUser(db, parsed.value, crypto, tokens, secret);
    match session
    case Success(s) => o := Ok(SessionObject(s));
    case Failure(e) => o := Next(Some(e));
  }

  method GetUserByIdController(req: Request, db: UserStore) returns (o: Outcome)
    ensures var p := ParseFacet(GetUserByIdSchema, req.params);
      && (p.Failure? ==> o == Next(Some(p.error)))
      && (p.Success? ==>
            var id := IdParam(Some(Obj(p.value)));
            && (o.Respond? <==> id.Some? && exists j :: 0 <= j < |db.docs| && db.docs[j].id == id.value)
            && (o.Respond? ==> id.Some? && exists j :: 0 <= j < |db.docs| && db.docs[j].id == id.value && o == Ok(Obj(ToObject(db.docs[j]))))
            && (o.Next? ==> o == Next(Some(StatusError(NotFoundMessage, 404)))))
  {
    var parsed := ParseFacet(GetUserByIdSchema, req.params);
    if parsed.Failure? {
      return Next(Some(parsed.error));
    }
    var id := IdParam(Some(Obj(parsed.value)));
    if id.None? {
      return FoundOr(None, NotFoundMessage);
    }
    var user := GetUserById(db, id.value);
    o := FoundOr(user, NotFoundMessage);
  }

  // ----- what the client sees -----

  /** The id the user lookup receives is always the text of JavaScript length 24 the schema checked. */
  lemma ParsedUserIdIsText(v: Option<Value>)
    requires ParseFacet(GetUserByIdSchema, v).Success?
    ensures var id := IdParam(Some(Obj(ParseFacet(GetUserByIdSchema, v).value)));
      id.Some? && Strings.Utf16Length(id.value) == 24 && v.value.fields["id"] == Str(id.value)
  {
    var input := Validator.Put(map[], "params", v);
    GetUserByIdSchemaMeaning(input);
    assert GetUserByIdSchema.shape.fields[0].key == "id";
  }

  /** A sign-up with an empty name, a malformed email and a short password is answered 400 listing all three. */
  lemma BadSignupAnswer(b: Object, url: string, httpMethod: string, isProd: bool, timestamp: string)
    requires b == BadSignupBody()
    ensures ParseFacet(CreateUserSchema, Some(Obj(b))).Failure?
    ensures var r := ErrorHandler.Handle(ParseFacet(CreateUserSchema, Some(Obj(b))).error, url, httpMethod, isProd, timestamp);
      && r.status == 400
      && r.body.message == ValidationFailedMessage
      && r.body.details == Some(IssueObjects([ Issue(["body", "name"], TooSmall, NameMessage),
                                               Issue(["body", "email"], InvalidString, EmailMessage),
                                               Issue(["body", "password"], TooSmall, PasswordMessage) ]))
  {
    BadSignupRejected(b);
    assert Validator.Put(map[], "body", Some(Obj(b))) == map["body" := Obj(b)];
  }

  /**
   * Signing up with an email already registered ends as a 500 whose body
   * says only "Internal server error": the duplicate is a plain Error.
   */
  lemma DuplicateSignupIs500(docs: seq<Doc>, data: Object, id: string, crypto: Crypto, j: nat,
                             url: string, httpMethod: string, isProd: bool, timestamp: string)
    requires j < |docs| && "email" in data && "email" in docs[j].fields && docs[j].fields["email"] == data["email"]
    ensures CreateUserResult(docs, data, id, crypto).Failure?
    ensures var r := ErrorHandler.Handle(CreateUserResult(docs, data, id, crypto).error, url, httpMethod, isProd, timestamp);
      r.status == 500 && r.body.message == ErrorHandler.InternalMessage
  {
    DuplicateEmailRejected(docs, data, id, crypto, j);
  }

  /**
   * In production a failed sign-in gets the same answer whether the email
   * is unknown or the password is wrong.
   */
  lemma SigninFailuresLookAlike(docs: seq<Doc>, data: Object, crypto: Crypto, tokens: Tokens, secret: string,
                                url: string, httpMethod: string, timestamp: string)
    requires SigninResult(docs, data, crypto, tokens, secret).Failure?
    ensures ErrorHandler.Handle(SigninResult(docs, data, crypto, tokens, secret).error, url, httpMethod, true, timestamp)
         == ErrorHandler.Handle(NewError(UnknownEmailMessage), url, httpMethod, true, timestamp)
  {
  }

  /** Outside production the stack trace tells the two sign-in failures apart. */
  lemma SigninFailuresDifferInDevelopment(url: string, httpMethod: string, timestamp: string)
    ensures ErrorHandler.Handle(NewError(UnknownEmailMessage), url, httpMethod, false, timestamp)
         != ErrorHandler.Handle(NewError(InvalidPasswordMessage), url, httpMethod, false, timestamp)
  {
    var a := ErrorHandler.Handle(NewError(UnknownEmailMessage), url, httpMethod, false, timestamp);
    var b := ErrorHandler.Handle(NewError(InvalidPasswordMessage), url, httpMethod, false, timestamp);
    assert a.body.stack == Some(StackHead("Error", UnknownEmailMessage));
    assert b.body.stack == Some(StackHead("Error", InvalidPasswordMessage));
    assert StackHead("Error", UnknownEmailMessage)[7] != StackHead("Error", InvalidPasswordMessage)[7];
  }

  /**
   * The token a successful sign-in answers is accepted by the authentication
   * middleware as the signed-in user's `_id`, as long as the library
   * verifies its own tokens.
   */
  lemma SigninTokenAuthenticates(docs: seq<Doc>, data: Object, crypto: Crypto, tokens: Tokens, secret: string, j: nat)
    requires UsersOk(docs)
    requires j < |docs| && "email" in data && "email" in docs[j].fields && docs[j].fields["email"] == data["email"]
    requires crypto.compare(Get(data, "password"), Get(docs[j].fields, "password"))
    requires RoundTrips(tokens, Str(docs[j].id), secret)
    requires ' ' !in tokens.sign(Str(docs[j].id), secret)
    ensures var s := SigninResult(docs, data, crypto, tokens, secret);
      && s.Success?
      && Auth.Decide(Some(Auth.Scheme + s.value.token), tokens, secret) == Success(AuthUser(Some(s.value.user["_id"])))
  {
    SigninAnswersUserAndToken(docs, data, crypto, tokens, secret, j);
    Auth.SignedTokenAuthenticates(Str(docs[j].id), tokens, secret);
  }
}

=== FILE: user_services.dfy ===
/**
 * The user services: registration with a duplicate-email check and a hashed
 * password, sign-in with distinct failures for an unknown email and a wrong
 * password, and lookup by id. bcrypt is a pair of functions the model does
 * not look inside.
 */
module UserServices {
  import opened Wrappers
  import opened Values
  import opened Errors
  import opened Store
  import opened Users
  import opened Jwt

  const SaltRounds := 10
  const DuplicateEmailMessage := "User with this email already exists"
  const UnknownEmailMessage := "User with this email does not exist"
  const InvalidPasswordMessage := "Invalid password"

  /** `bcrypt.hash(password, rounds)` and `bcrypt.compare(candidate, hash)`. */
  datatype Crypto = Crypto(hash: (Option<Value>, nat) -> string, compare: (Option<Value>, Option<Value>) -> bool)

  /** What sign-in answers: the user record and the token, both returned. */
  datatype Session = Session(user: Object, token: string)

  /** `{ ...data, password: hashedPassword }` */
  function WithHashedPassword(data: Object, crypto: Crypto): (d: Object)
    ensures d.Keys == data.Keys + {"password"}
    ensures d["password"] == Str(crypto.hash(Get(data, "password"), SaltRounds))
    ensures forall k :: k in data && k != "password" ==> d[k] == data[k]
  {
    data["password" := Str(crypto.hash(Get(data, "password"), SaltRounds))]
  }

  /** `createUser(data)` on the collection `docs`, the new user taking the id `id`. */
  function CreateUserResult(docs: seq<Doc>, data: Object, id: string, crypto: Crypto): (r: Result<Doc, Error>)
    ensures FindOne(docs, EmailFilter(Get(data, "email"))).Some? ==> r == Failure(NewError(DuplicateEmailMessage))
    ensures FindOne(docs, EmailFilter(Get(data, "email"))).None? ==> r == InsertUserResult(docs, WithHashedPassword(data, crypto), id)
    ensures r.Success? ==> r.value == Doc(id, WithHashedPassword(data, crypto))
  {
    if FindOne(docs, EmailFilter(Get(data, "email"))).Some? then Failure(NewError(DuplicateEmailMessage))
    else InsertUserResult(docs, WithHashedPassword(data, crypto), id)
  }

  /** `signinUser(data)` against the collection `docs`. */
  function SigninResult(docs: seq<Doc>, data: Object, crypto: Crypto, tokens: Tokens, secret: string): (r: Result<Session, Error>)
    ensures r.Success? <==>
      var u := FindOne(docs, EmailFilter(Get(data, "email")));
      u.Some? && crypto.compare(Get(data, "password"), Get(u.value.fields, "password"))
  {
    match FindOne(docs, EmailFilter(Get(data, "email")))
    case None => Failure(NewError(UnknownEmailMessage))
    case Some(user) =>
      var valid := crypto.compare(Get(data, "password"), Get(user.fields, "password"));
      var token := tokens.sign(Str(user.id), secret);
      if !valid then Failure(NewError(InvalidPasswordMessage))
      else Success(Session(ToObject(user), token))
  }

  method CreateUser(db: UserStore, data: Object, id: string, crypto: Crypto) returns (r: Result<Object, Error>)
    requires db.Valid()
    modifies db
    ensures db.Valid()
    ensures var c := CreateUserResult(old(db.docs), data, id, crypto);
      && (r.Success? <==> c.Success?)
      && (r.Success? ==> r.value == ToObject(c.value) && db.docs == old(db.docs) + [c.value])
      && (r.Failure? ==> r.error == c.error && db.docs == old(db.docs))
  {
    var existing := FindOne(db.docs, EmailFilter(Get(data, "email")));
    if existing.Some? {
      return Failure(NewError(DuplicateEmailMessage));
    }
    var hashed := crypto.hash(Get(data, "password"), SaltRounds);
    var created := db.Create(data["password" := Str(hashed)], id);
    match created
    case Success(user) => r := Success(ToObject(user));
    case Failure(e) => r := Failure(e);
  }

  method SigninUser(db: UserStore, data: Object, crypto: Crypto, tokens: Tokens, secret: string) returns (r: Result<Session, Error>)
    ensures r == SigninResult(db.docs, data, crypto, tokens, secret)
  {
    var user := FindOne(db.docs, EmailFilter(Get(data, "email")));
    if user.None? {
      return Failure(NewError(UnknownEmailMessage));
    }
    var valid := crypto.compare(Get(data, "password"), Get(user.value.fields, "password"));
    var token := tokens.sign(Str(user.value.id), secret);
    if !valid {
      return Failure(NewError(InvalidPasswordMessage));
    }
    r := Success(Session(ToObject(user.value), token));
  }

  method GetUserById(db: UserStore, id: string) returns (r: Option<Object>)
    ensures r.None? <==> forall j :: 0 <= j < |db.docs| ==> db.docs[j].id != id
    ensures r.Some? ==> exists j :: 0 <= j < |db.docs| && db.docs[j].id == id && r.value == ToObject(db.docs[j])
  {
    var user := FindId(db.docs, id);
    if user.None? {
      return None;
    }
    r := Some(ToObject(user.value));
  }

  // ----- what the services promise -----

  /**
   * For an email given as text, as the sign-up schema guarantees, creation
   * succeeds exactly when no user holds that email and the new id is free,
   * and then stores the user with the hashed password.
   */
  lemma CreateUserSucceedsOnNewEmail(docs: seq<Doc>, data: Object, id: string, crypto: Crypto)
    requires "email" in data && data["email"].Str?
    ensures CreateUserResult(docs, data, id, crypto).Success?
        <==> FindOne(docs, EmailFilter(Get(data, "email"))).None? && IndexOfId(docs, id).None?
    ensures CreateUserResult(docs, data, id, crypto).Success?
        ==> CreateUserResult(docs, data, id, crypto).value == Doc(id, WithHashedPassword(data, crypto))
  {
    var hashed := WithHashedPassword(data, crypto);
    var f := EmailFilter(Get(data, "email"));
    if FindOne(docs, f).None? {
      assert EmailKey(Doc(id, hashed)) == data["email"];
      forall i | 0 <= i < |docs| ensures EmailKey(docs[i]) != data["email"] {
        assert docs[i] in docs && !Matches(docs[i], f);
      }
    }
  }

  /** Registering an email that is already taken fails with the duplicate message and stores nothing. */
  lemma DuplicateEmailRejected(docs: seq<Doc>, data: Object, id: string, crypto: Crypto, j: nat)
    requires j < |docs| && "email" in data && "email" in docs[j].fields && docs[j].fields["email"] == data["email"]
    ensures CreateUserResult(docs, data, id, crypto) == Failure(NewError(DuplicateEmailMessage))
  {
    assert Matches(docs[j], EmailFilter(Get(data, "email")));
    assert docs[j] in docs;
  }

  /** What is stored is the hash of the password, and every other field as given. */
  lemma StoresHashedPassword(docs: seq<Doc>, data: Object, id: string, crypto: Crypto)
    requires CreateUserResult(docs, data, id, crypto).Success?
    ensures var stored := CreateUserResult(docs, data, id, crypto).value.fields;
      && stored["password"] == Str(crypto.hash(Get(data, "password"), SaltRounds))
      && forall k :: k in data && k != "password" ==> k in stored && stored[k] == data[k]
  {
  }

  /** An email nobody registered fails sign-in with the not-found message. */
  lemma UnknownEmailFails(docs: seq<Doc>, data: Object, crypto: Crypto, tokens: Tokens, secret: string)
    requires "email" in data
    requires forall j :: 0 <= j < |docs| ==> EmailKey(docs[j]) != data["email"]
    ensures SigninResult(docs, data, crypto, tokens, secret) == Failure(NewError(UnknownEmailMessage))
  {
    forall d | d in docs ensures !Matches(d, EmailFilter(Get(data, "email"))) {
      var j :| 0 <= j < |docs| && docs[j] == d;
    }
  }

  /** A registered email with a password that does not match fails with the other message. */
  lemma WrongPasswordFails(docs: seq<Doc>, data: Object, crypto: Crypto, tokens: Tokens, secret: string, j: nat)
    requires UsersOk(docs)
    requires j < |docs| && "email" in data && "email" in docs[j].fields && docs[j].fields["email"] == data["email"]
    requires !crypto.compare(Get(data, "password"), Get(docs[j].fields, "password"))
    ensures SigninResult(docs, data, crypto, tokens, secret) == Failure(NewError(InvalidPasswordMessage))
  {
    OnlyMatch(docs, data, j);
  }

  /** A successful sign-in answers the user's record and a token signed over its id. */
  lemma SigninAnswersUserAndToken(docs: seq<Doc>, data: Object, crypto: Crypto, tokens: Tokens, secret: string, j: nat)
    requires UsersOk(docs)
    requires j < |docs| && "email" in data && "email" in docs[j].fields && docs[j].fields["email"] == data["email"]
    requires crypto.compare(Get(data, "password"), Get(docs[j].fields, "password"))
    ensures SigninResult(docs, data, crypto, tokens, secret)
         == Success(Session(ToObject(docs[j]), tokens.sign(Str(docs[j].id), secret)))
  {
    OnlyMatch(docs, data, j);
  }

  /** With unique emails, the user holding the email is the one `findOne` answers. */
  lemma OnlyMatch(docs: seq<Doc>, data: Object, j: nat)
    requires UsersOk(docs)
    requires j < |docs| && "email" in data && "email" in docs[j].fields && docs[j].fields["email"] == data["email"]
    ensures FindOne(docs, EmailFilter(Get(data, "email"))) == Some(docs[j])
  {
    var f := EmailFilter(Get(data, "email"));
    assert Matches(docs[j], f) && docs[j] in docs;
    var u := FindOne(docs, f).value;
    var k :| 0 <= k < |docs| && docs[k] == u;
    assert EmailKey(docs[k]) == EmailKey(docs[j]);
  }

  /**
   * Registration followed by sign-in with the same credentials succeeds, as
   * the new user, whenever bcrypt accepts the password against its own hash.
   */
  lemma SignupThenSignin(docs: seq<Doc>, data: Object, id: string, crypto: Crypto, tokens: Tokens, secret: string)
    requires UsersOk(docs)
    requires "email" in data
    requires CreateUserResult(docs, data, id, crypto).Success?
    requires crypto.compare(Get(data, "password"), Some(Str(crypto.hash(Get(data, "password"), SaltRounds))))
    ensures var user := CreateUserResult(docs, data, id, crypto).value;
      SigninResult(docs + [user], data, crypto, tokens, secret) == Success(Session(ToObject(user), tokens.sign(Str(id), secret)))
  {
    var user := CreateUserResult(docs, data, id, crypto).value;
    InsertUserKeepsOk(docs, WithHashedPassword(data, crypto), id);
    SigninAnswersUserAndToken(docs + [user], data, crypto, tokens, secret, |docs|);
  }
}

=== FILE: user_validation.dfy ===
/** The request schemas of the user routes. */
module UserValidation {
  import opened Wrappers
  import opened Values
  import opened Zod
  import Strings

  const NameMessage := "Name is required"
  const EmailMessage := "Invalid email address"
  const PasswordMessage := "Password must be at least 8 characters long"

  /** POST /users/create */
  const CreateUserSchema := Schema("body", Shape([
    Field("name", TextMin(1, NameMessage), false),
    Field("email", Email(EmailMessage), false),
    Field("password", TextMin(8, PasswordMessage), false)
  ], None))

  /** POST /users/signinUser */
  const SigninUserSchema := Schema("body", Shape([
    Field("email", Email(EmailMessage), false),
    Field("password", TextMin(8, PasswordMessage), false)
  ], None))

  /** GET /users/:id */
  const GetUserByIdSchema := Schema("params", Shape([
    Field("id", TextLength(24, "Invalid user ID"), false)
  ], None))

  predicate IsEmail(v: Value) { v.Str? && LooksLikeEmail(v.s) }
  predicate IsPassword(v: Value) { v.Str? && Strings.Utf16Length(v.s) >= 8 }

  predicate CreateBodyOk(b: Object) {
    && "name" in b && b["name"].Str? && Strings.Utf16Length(b["name"].s) >= 1
    && "email" in b && IsEmail(b["email"])
    && "password" in b && IsPassword(b["password"])
  }

  predicate SigninBodyOk(b: Object) {
    && "email" in b && IsEmail(b["email"])
    && "password" in b && IsPassword(b["password"])
  }

  lemma CreateUserSchemaMeaning(input: Object)
    ensures SafeParse(CreateUserSchema, input).Success?
        <==> "body" in input && input["body"].Obj? && CreateBodyOk(input["body"].fields)
  {
    SafeParseMeaning(CreateUserSchema, input);
    if "body" in input && input["body"].Obj? {
      CreateShapeMeaning(input["body"].fields);
    }
  }

  /** The sign-up shape accepts a body exactly when it is a sign-up body. */
  lemma CreateShapeMeaning(b: Object)
    ensures ShapeAccepts(CreateUserSchema.shape, b) <==> CreateBodyOk(b)
  {
    var fs := CreateUserSchema.shape.fields;
    if CreateBodyOk(b) {
      forall i | 0 <= i < |fs| ensures FieldOk(fs[i], b) {
        assert i == 0 || i == 1 || i == 2;
      }
    }
    if ShapeAccepts(CreateUserSchema.shape, b) {
      assert FieldOk(fs[0], b) && FieldOk(fs[1], b) && FieldOk(fs[2], b);
    }
  }

  lemma SigninUserSchemaMeaning(input: Object)
    ensures SafeParse(SigninUserSchema, input).Success?
        <==> "body" in input && input["body"].Obj? && SigninBodyOk(input["body"].fields)
  {
    SafeParseMeaning(SigninUserSchema, input);
    if "body" in input && input["body"].Obj? {
      SigninShapeMeaning(input["body"].fields);
    }
  }

  /** The sign-in shape accepts a body exactly when it is a sign-in body. */
  lemma SigninShapeMeaning(b: Object)
    ensures ShapeAccepts(SigninUserSchema.shape, b) <==> SigninBodyOk(b)
  {
    var fs := SigninUserSchema.shape.fields;
    if SigninBodyOk(b) {
      forall i | 0 <= i < |fs| ensures FieldOk(fs[i], b) {
        assert i == 0 || i == 1;
      }
    }
    if ShapeAccepts(SigninUserSchema.shape, b) {
      assert FieldOk(fs[0], b) && FieldOk(fs[1], b);
    }
  }

  lemma GetUserByIdSchemaMeaning(input: Object)
    ensures SafeParse(GetUserByIdSchema, input).Success?
        <==> "params" in input && input["params"].Obj? && "id" in input["params"].fields
             && input["params"].fields["id"].Str? && Strings.Utf16Length(input["params"].fields["id"].s) == 24
  {
    SafeParseMeaning(GetUserByIdSchema, input);
    if "params" in input && input["params"].Obj? {
      assert GetUserByIdSchema.shape.fields[0] == Field("id", TextLength(24, "Invalid user ID"), false);
    }
  }

  /** Sign-in asks for a subset of what sign-up asks for, under the same bounds. */
  lemma SignupBodySignsIn(input: Object)
    requires SafeParse(CreateUserSchema, input).Success?
    ensures SafeParse(SigninUserSchema, input).Success?
  {
    CreateUserSchemaMeaning(input);
    SigninUserSchemaMeaning(input);
  }

  /** "bad-email" has no '@', so it is not an address. */
  lemma BadEmailIsNotEmail()
    ensures !LooksLikeEmail("bad-email")
  {
    Strings.SplitWithout("bad-email", '@');
  }

  /** The email check reports a text that is not an address as one invalid-string issue. */
  lemma NotEmailIssue(path: seq<string>, s: string)
    requires !LooksLikeEmail(s)
    ensures CheckIssues(path, Email(EmailMessage), Str(s)) == [Issue(path, InvalidString, EmailMessage)]
  {
  }

  /** An address `local@host.tld`, whose parts are non-empty and hold no '@', '.' or space, passes the email check. */
  lemma TwoLabelAddressIsEmail(local: string, host: string, tld: string)
    requires local != [] && host != [] && tld != []
    requires '@' !in local && '@' !in host && '@' !in tld && '.' !in host && '.' !in tld
    requires ' ' !in local && ' ' !in host && ' ' !in tld
    ensures LooksLikeEmail(local + "@" + host + "." + tld)
  {
    var domain := host + "." + tld;
    assert local + "@" + host + "." + tld == local + ['@'] + domain;
    Strings.SplitAtFirst(local, '@', domain);
    Strings.SplitWithout(domain, '@');
    assert domain == host + ['.'] + tld;
    Strings.SplitAtFirst(host, '.', tld);
    Strings.SplitWithout(tld, '.');
  }

  /** "ann@x.com" is an address. */
  lemma AnnEmailIsEmail()
    ensures LooksLikeEmail("ann@x.com")
  {
    TwoLabelAddressIsEmail("ann", "x", "com");
    assert "ann" + "@" + "x" + "." + "com" == "ann@x.com";
  }

  /** Four emoji are eight UTF-16 units, so they pass the password's `min(8)`. */
  lemma FourEmojiPassword()
    ensures |"\U{1F600}\U{1F600}\U{1F600}\U{1F600}"| == 4
    ensures IsPassword(Str("\U{1F600}\U{1F600}\U{1F600}\U{1F600}"))
  {
  }

  /** The sign-up body of the controller test: empty name, malformed email, short password. */
  function BadSignupBody(): Object {
    map["name" := Str(""), "email" := Str("bad-email"), "password" := Str("short")]
  }

  lemma BadSignupNameIssue(b: Object)
    requires b == BadSignupBody()
    ensures OneFieldIssues(["body"], CreateUserSchema.shape.fields[0], b) == [Issue(["body", "name"], TooSmall, NameMessage)]
  {
    var p: seq<string> := ["body"];
    assert p + ["name"] == ["body", "name"];
  }

  lemma BadSignupEmailIssue(b: Object)
    requires b == BadSignupBody()
    ensures OneFieldIssues(["body"], CreateUserSchema.shape.fields[1], b) == [Issue(["body", "email"], InvalidString, EmailMessage)]
  {
    var p: seq<string> := ["body"];
    assert p + ["email"] == ["body", "email"];
    BadEmailIsNotEmail();
    NotEmailIssue(p + ["email"], "bad-email");
  }

  lemma BadSignupPasswordIssue(b: Object)
    requires b == BadSignupBody()
    ensures OneFieldIssues(["body"], CreateUserSchema.shape.fields[2], b) == [Issue(["body", "password"], TooSmall, PasswordMessage)]
  {
    var p: seq<string> := ["body"];
    assert p + ["password"] == ["body", "password"];
  }

  lemma BadSignupAllIssues(b: Object)
    requires b == BadSignupBody()
    ensures FieldIssues(["body"], CreateUserSchema.shape.fields, b)
         == [ Issue(["body", "name"], TooSmall, NameMessage),
              Issue(["body", "email"], InvalidString, EmailMessage),
              Issue(["body", "password"], TooSmall, PasswordMessage) ]
  {
    BadSignupNameIssue(b);
    BadSignupEmailIssue(b);
    BadSignupPasswordIssue(b);
    var fs := CreateUserSchema.shape.fields;
    var p: seq<string> := ["body"];
    assert fs[1..][1..] == fs[2..] && fs[2..][1..] == [];
    assert FieldIssues(p, fs[2..], b) == OneFieldIssues(p, fs[2], b);
    assert FieldIssues(p, fs[1..], b) == OneFieldIssues(p, fs[1], b) + FieldIssues(p, fs[2..], b);
  }

  /** Empty name, malformed email and short password: three issues, one per field, in field order. */
  lemma BadSignupRejected(b: Object)
    requires b == BadSignupBody()
    ensures SafeParse(CreateUserSchema, map["body" := Obj(b)])
         == Failure([ Issue(["body", "name"], TooSmall, NameMessage),
                      Issue(["body", "email"], InvalidString, EmailMessage),
                      Issue(["body", "password"], TooSmall, PasswordMessage) ])
  {
    BadSignupAllIssues(b);
  }

  function GoodSignupBody(): Object {
    map["name" := Str("Ann"), "email" := Str("ann@x.com"), "password" := Str("longenough")]
  }

  lemma GoodSignupBodyOk(b: Object)
    requires b == GoodSignupBody()
    ensures CreateBodyOk(b)
  {
    TwoLabelAddressIsEmail("ann", "x", "com");
    assert b["email"].s == "ann" + "@" + "x" + "." + "com";
    assert Strings.Utf16Length(b["name"].s) >= |"Ann"| == 3;
    assert Strings.Utf16Length(b["password"].s) >= |"longenough"| == 10;
  }

  lemma CreateUserKeys()
    ensures Keys(CreateUserSchema.shape.fields) == {"name", "email", "password"}
  {
    var fs := CreateUserSchema.shape.fields;
    assert fs[0].key == "name" && fs[1].key == "email" && fs[2].key == "password";
  }

  /** A valid sign-up body without extra keys is passed on unchanged in value. */
  lemma ValidSignupUnchanged(b: Object)
    requires CreateBodyOk(b) && b.Keys <= {"name", "email", "password"}
    ensures SafeParse(CreateUserSchema, map["body" := Obj(b)]) == Success(map["body" := Obj(b)])
  {
    var input := map["body" := Obj(b)];
    CreateUserSchemaMeaning(input);
    CreateUserKeys();
    assert Known(CreateUserSchema.shape.fields, b) == b;
    var r := SafeParse(CreateUserSchema, input);
    assert r.value == map["body" := Obj(b)];
  }

  /** A concrete well-formed sign-up body is accepted as is. */
  lemma GoodSignupAccepted(b: Object)
    requires b == GoodSignupBody()
    ensures SafeParse(CreateUserSchema, map["body" := Obj(b)]) == Success(map["body" := Obj(b)])
  {
    GoodSignupBodyOk(b);
    ValidSignupUnchanged(b);
  }
}

=== FILE: users.dfy ===
/**
 * The user collection: documents keyed by `_id` with a unique index on
 * `email`. The user schema itself is not part of this model, so a user
 * document holds whatever fields it was created with.
 */
module Users {
  import opened Wrappers
  import opened Values
  import opened Errors
  import opened Store

  /** The value the unique email index holds for a user; a missing email indexes as null. */
  function EmailKey(d: Doc): Value {
    if "email" in d.fields then d.fields["email"] else Null
  }

  predicate DistinctEmails(docs: seq<Doc>) {
    forall i, j :: 0 <= i < j < |docs| ==> EmailKey(docs[i]) != EmailKey(docs[j])
  }

  /** The user collection invariant: both unique indexes hold. */
  predicate UsersOk(docs: seq<Doc>) {
    DistinctIds(docs) && DistinctEmails(docs)
  }

  /** `{ email: data.email }`; a key whose value is undefined is dropped from a filter. */
  function EmailFilter(email: Option<Value>): (f: Object)
    ensures email.None? ==> f == map[]
    ensures email.Some? ==> f.Keys == {"email"} && f["email"] == email.value
  {
    match email
    case None => map[]
    case Some(e) => map["email" := e]
  }

  /** `Model.findOne(filter)`: the first matching document in collection order. */
  function FindOne(docs: seq<Doc>, filter: Object): (r: Option<Doc>)
    ensures r.None? <==> forall d :: d in docs ==> !Matches(d, filter)
    ensures r.Some? ==> r.value in docs && Matches(r.value, filter)
  {
    var found := Select(docs, filter);
    if found == [] then None
    else
      assert found[0] in found;
      Some(found[0])
  }

  predicate EmailTaken(docs: seq<Doc>, e: Value) {
    exists i :: 0 <= i < |docs| && EmailKey(docs[i]) == e
  }

  /** `User.create(data)` with the new id `id`: both unique indexes are checked. */
  function InsertUserResult(docs: seq<Doc>, data: Object, id: string): (r: Result<Doc, Error>)
    ensures r.Success? <==> IndexOfId(docs, id).None? && !EmailTaken(docs, EmailKey(Doc(id, data)))
    ensures r.Success? ==> r.value == Doc(id, data)
    ensures r.Failure? ==> r.error.code == Some(DuplicateKeyCode)
  {
    var d := Doc(id, data);
    if IndexOfId(docs, id).Some? then Failure(DuplicateKeyError(map["_id" := Str(id)]))
    else if EmailTaken(docs, EmailKey(d)) then Failure(DuplicateKeyError(map["email" := EmailKey(d)]))
    else Success(d)
  }

  lemma InsertUserKeepsOk(docs: seq<Doc>, data: Object, id: string)
    requires UsersOk(docs)
    requires InsertUserResult(docs, data, id).Success?
    ensures UsersOk(docs + [Doc(id, data)])
  {
    var r := docs + [Doc(id, data)];
    forall i, j | 0 <= i < j < |r| ensures r[i].id != r[j].id && EmailKey(r[i]) != EmailKey(r[j]) {
      if j == |docs| {
        assert r[i] == docs[i];
      }
    }
  }

  class UserStore {
    var docs: seq<Doc>

    ghost predicate Valid()
      reads this
    {
      UsersOk(docs)
    }

    constructor()
      ensures docs == [] && Valid()
    {
      docs := [];
    }

    method Create(data: Object, id: string) returns (r: Result<Doc, Error>)
      requires Valid()
      modifies this
      ensures Valid()
      ensures r == InsertUserResult(old(docs), data, id)
      ensures docs == if r.Success? then old(docs) + [r.value] else old(docs)
    {
      r := InsertUserResult(docs, data, id);
      if r.Success? {
        InsertUserKeepsOk(docs, data, id);
        docs := docs + [r.value];
      }
    }
  }
}

=== FILE: validator.dfy ===
/**
 * The validation middleware `validate(schema, source)`: parse the request
 * facets with a schema, answer 400 with the issues, or replace the facets
 * with their parsed values and pass on.
 */
module Validator {
  import opened Wrappers
  import opened Values
  import opened Zod
  import opened Http
  import TransactionValidation
  import BudgetValidation

  datatype Source = Body | Params | Query

  function SourceName(s: Source): string {
    match s
    case Body => "body"
    case Params => "params"
    case Query => "query"
  }

  /** The three request facets the middleware reads and may replace. */
  datatype Facets = Facets(body: Option<Value>, params: Option<Value>, query: Option<Value>)

  function FacetOf(f: Facets, s: Source): Option<Value> {
    match s
    case Body => f.body
    case Params => f.params
    case Query => f.query
  }

  /** `{ key: value }` where an undefined value adds no key. */
  function Put(o: Object, key: string, v: Option<Value>): Object {
    if v.Some? then o[key := v.value] else o
  }

  /** `{ [source]: req[source], params: req.params, query: req.query }` */
  function RequestData(source: Source, f: Facets): (data: Object)
    ensures Get(data, SourceName(source)) == FacetOf(f, source)
    ensures Get(data, "params") == f.params && Get(data, "query") == f.query
    ensures data.Keys <= {SourceName(source), "params", "query"}
  {
    Put(Put(Put(map[], SourceName(source), FacetOf(f, source)), "params", f.params), "query", f.query)
  }

  /** `if (result.data[key]) req[key] = result.data[key]` */
  function Replace(out: Object, key: string, current: Option<Value>): Option<Value> {
    if key in out && Truthy(out[key]) then Some(out[key]) else current
  }

  /** The 400 answer: `{ errors: result.error.errors }`. */
  function Rejection(issues: seq<Issue>): Response {
    Response(400, Some(Obj(map["errors" := IssueObjects(issues)])))
  }

  /** What the middleware does to a request whose facets are `f`: its outcome and the facets after it. */
  function ValidateFacets(schema: Schema, source: Source, f: Facets): (r: (Outcome, Facets))
    ensures r.0.Respond? <==> SafeParse(schema, RequestData(source, f)).Failure?
    ensures r.0.Respond? ==> r.0 == Respond(Rejection(SafeParse(schema, RequestData(source, f)).error)) && r.1 == f
    ensures r.0.Next? ==> r.0.err.None?
    ensures r.0.Next? ==> var out := SafeParse(schema, RequestData(source, f)).value;
      && r.1.body == (if schema.facet == "body" then Some(out["body"]) else f.body)
      && r.1.params == (if schema.facet == "params" then Some(out["params"]) else f.params)
      && r.1.query == (if schema.facet == "query" then Some(out["query"]) else f.query)
  {
    match SafeParse(schema, RequestData(source, f))
    case Failure(issues) => (Respond(Rejection(issues)), f)
    case Success(out) =>
      (Next(None), Facets(Replace(out, "body", f.body), Replace(out, "params", f.params), Replace(out, "query", f.query)))
  }

  /** `validate(schema, source)(req, res, next)` */
  method Validate(req: Request, schema: Schema, source: Source := Body) returns (o: Outcome)
    modifies req`body, req`params, req`query
    ensures (o, Facets(req.body, req.params, req.query))
         == ValidateFacets(schema, source, old(Facets(req.body, req.params, req.query)))
  {
    var f := Facets(req.body, req.params, req.query);
    var data := RequestData(source, f);
    var result := SafeParse(schema, data);
    if result.Failure? {
      return Respond(Rejection(result.error));
    }
    var out := result.value;
    if "body" in out && Truthy(out["body"]) { req.body := Some(out["body"]); }
    if "params" in out && Truthy(out["params"]) { req.params := Some(out["params"]); }
    if "query" in out && Truthy(out["query"]) { req.query := Some(out["query"]); }
    o := Next(None);
  }

  // ----- what a passing validation guarantees the controller -----

  lemma KnownKeepsFields(fields: seq<Field>, b: Object, k: string)
    requires k in Keys(fields)
    ensures k in Known(fields, b) <==> k in b
    ensures k in b ==> Known(fields, b)[k] == b[k]
  {
  }

  /** After the create-transaction validator passes, the body is a well-formed create body holding only schema keys. */
  lemma ValidatedTransactionBody(f: Facets)
    requires ValidateFacets(TransactionValidation.CreateTransactionSchema, Body, f).0.Next?
    ensures var after := ValidateFacets(TransactionValidation.CreateTransactionSchema, Body, f).1;
      && after.body.Some? && after.body.value.Obj?
      && TransactionValidation.CreateBodyOk(after.body.value.fields)
      && after.params == f.params && after.query == f.query
  {
    var schema := TransactionValidation.CreateTransactionSchema;
    var data := RequestData(Body, f);
    TransactionValidation.CreateTransactionSchemaMeaning(data);
    var fs := schema.shape.fields;
    var b := data["body"].fields;
    forall k | k in {"user", "type", "category", "amount", "date", "note"} ensures k in Keys(fs) {
      assert k == fs[0].key || k == fs[1].key || k == fs[2].key || k == fs[3].key || k == fs[4].key || k == fs[5].key;
    }
    KnownKeepsFields(fs, b, "user");
    KnownKeepsFields(fs, b, "type");
    KnownKeepsFields(fs, b, "category");
    KnownKeepsFields(fs, b, "amount");
    KnownKeepsFields(fs, b, "date");
    KnownKeepsFields(fs, b, "note");
  }

  /** After the create-budget validator passes, the body is a well-formed create body. */
  lemma ValidatedBudgetBody(f: Facets)
    requires ValidateFacets(BudgetValidation.CreateBudgetSchema, Body, f).0.Next?
    ensures var after := ValidateFacets(BudgetValidation.CreateBudgetSchema, Body, f).1;
      && after.body.Some? && after.body.value.Obj?
      && BudgetValidation.CreateBodyOk(after.body.value.fields)
      && after.params == f.params && after.query == f.query
  {
    var schema := BudgetValidation.CreateBudgetSchema;
    var data := RequestData(Body, f);
    BudgetValidation.CreateBudgetSchemaMeaning(data);
    var fs := schema.shape.fields;
    var b := data["body"].fields;
    forall k | k in {"user", "month", "year", "monthlyGoal", "savingsTarget"} ensures k in Keys(fs) {
      assert k == fs[0].key || k == fs[1].key || k == fs[2].key || k == fs[3].key || k == fs[4].key;
    }
    KnownKeepsFields(fs, b, "user");
    KnownKeepsFields(fs, b, "month");
    KnownKeepsFields(fs, b, "year");
    KnownKeepsFields(fs, b, "monthlyGoal");
    KnownKeepsFields(fs, b, "savingsTarget");
  }

  /** A rejected request is answered 400 with at least one issue, every one of them about the schema's facet. */
  lemma RejectionNamesFacet(schema: Schema, source: Source, f: Facets)
    requires ValidateFacets(schema, source, f).0.Respond?
    ensures var issues := SafeParse(schema, RequestData(source, f)).error;
      && ValidateFacets(schema, source, f).0.response.status == 400
      && |issues| >= 1
      && forall i :: 0 <= i < |issues| ==> issues[i].path[0] == schema.facet
  {
  }
}

=== FILE: values.dfy ===
/**
 * JavaScript values as they flow through the application: request bodies,
 * stored documents and JSON responses. An absent key stands for `undefined`.
 */
module Values {
  import opened Wrappers

  datatype Value =
    | Null
    | Bool(b: bool)
    | Num(n: real)        // a JavaScript number, taken as an exact real
    | Str(s: string)
    | Date(ms: int)       // a Date object, by its time value in milliseconds
    | Arr(items: seq<Value>)
    | Obj(fields: map<string, Value>)

  /** A plain object: the keys it has and their values. */
  type Object = map<string, Value>

  /** JavaScript truthiness (NaN is not a value of this model). */
  predicate Truthy(v: Value) {
    match v
    case Null => false
    case Bool(b) => b
    case Num(n) => n != 0.0
    case Str(s) => s != ""
    case _ => true
  }

  /** `o[k]`, with `None` for undefined. */
  function Get(o: Object, k: string): (r: Option<Value>)
    ensures r.Some? <==> k in o
    ensures r.Some? ==> r.value == o[k]
  {
    if k in o then Some(o[k]) else None
  }

  /** `{ ...v }` for a value spread into a fresh object: only objects contribute keys. */
  function Spread(v: Option<Value>): Object {
    if v.Some? && v.value.Obj? then v.value.fields else map[]
  }

  /** `Number.isInteger(n)` */
  predicate IsInteger(n: real) {
    n.Floor as real == n
  }
}

=== FILE: wrappers.dfy ===
/** Option and Result, used for JavaScript's null sentinels and thrown errors. */
module Wrappers {

  datatype Option<+T> = None | Some(value: T)

  /** A call that either returns a value or throws an error. */
  datatype Result<+R, +E> = Success(value: R) | Failure(error: E)
}

=== FILE: zod.dfy ===
/**
 * The part of the zod schema language the request schemas use, as an
 * interpreter: a schema is data, `SafeParse` gives either the parsed
 * (unknown-key-stripped) input or the list of issues found.
 */
module Zod {
  import opened Wrappers
  import opened Values
  import Strings

  datatype IssueCode = InvalidType | TooSmall | TooBig | InvalidEnumValue | InvalidString | Custom

  /** One field-level violation: where, what kind, and the human-readable text. */
  datatype Issue = Issue(path: seq<string>, code: IssueCode, message: string)

  /** The code as zod spells it in an issue object. */
  function CodeName(c: IssueCode): string {
    match c
    case InvalidType => "invalid_type"
    case TooSmall => "too_small"
    case TooBig => "too_big"
    case InvalidEnumValue => "invalid_enum_value"
    case InvalidString => "invalid_string"
    case Custom => "custom"
  }

  /** An issue as a plain object: the path, code and message zod reports (its code-specific fields are not modelled). */
  function IssueObject(i: Issue): Value {
    Obj(map["path" := Arr(seq(|i.path|, j requires 0 <= j < |i.path| => Str(i.path[j]))),
            "code" := Str(CodeName(i.code)),
            "message" := Str(i.message)])
  }

  function IssueObjects(issues: seq<Issue>): (v: Value)
    ensures v.Arr? && |v.items| == |issues|
    ensures forall j :: 0 <= j < |issues| ==> v.items[j] == IssueObject(issues[j])
  {
    Arr(seq(|issues|, j requires 0 <= j < |issues| => IssueObject(issues[j])))
  }

  /** The message zod gives a missing required key; other default texts are left empty. */
  const RequiredMessage := "Required"

  /** The constraint chain of one field. */
  datatype Check =
    | Text                                  // zod.string()
    | TextLength(n: nat, message: string)   // zod.string().length(n, message)
    | TextMin(n: nat, message: string)      // zod.string().min(n, message)
    | Email(message: string)                // zod.string().email(message)
    | OneOf(options: seq<string>)           // zod.enum(options)
    | Integer(min: int, max: Option<int>)   // zod.number().int().min(min), optionally .max(max)
    | NonNegative                           // zod.number().nonnegative()
    | Positive(message: string)             // zod.number().positive(message)

  /** `key: check`, with `.optional()` when `optional` holds. */
  datatype Field = Field(key: string, check: Check, optional: bool)

  /** `zod.object({...fields})`, with `.refine(keys non-empty, message)` when `nonEmpty` is given. */
  datatype Shape = Shape(fields: seq<Field>, nonEmpty: Option<string>)

  /** `zod.object({ [facet]: shape })`: every request schema wraps one facet. */
  datatype Schema = Schema(facet: string, shape: Shape)

  /**
   * Stand-in for zod's email pattern: one '@' with a non-empty local part,
   * a domain of at least two non-empty dot-separated labels, and no space.
   */
  predicate LooksLikeEmail(s: string) {
    var halves := Strings.Split(s, '@');
    var labels := Strings.Split(halves[|halves| - 1], '.');
    && |halves| == 2
    && halves[0] != []
    && ' ' !in s
    && |labels| >= 2
    && forall i :: 0 <= i < |labels| ==> labels[i] != []
  }

  /** What a check admits, stated directly. */
  predicate Admits(c: Check, v: Value) {
    match c
    case Text => v.Str?
    case TextLength(n, _) => v.Str? && Strings.Utf16Length(v.s) == n
    case TextMin(n, _) => v.Str? && Strings.Utf16Length(v.s) >= n
    case Email(_) => v.Str? && LooksLikeEmail(v.s)
    case OneOf(options) => v.Str? && v.s in options
    case Integer(min, max) =>
      v.Num? && IsInteger(v.n) && v.n >= min as real && (max.Some? ==> v.n <= max.value as real)
    case NonNegative => v.Num? && v.n >= 0.0
    case Positive(_) => v.Num? && v.n > 0.0
  }

  /** The issues zod reports for a present value: one type issue, or one per failed check. */
  function CheckIssues(path: seq<string>, c: Check, v: Value): (issues: seq<Issue>)
    ensures issues == [] <==> Admits(c, v)
    ensures forall i :: 0 <= i < |issues| ==> issues[i].path == path
  {
    var wrongType := [Issue(path, InvalidType, "")];
    match c
    case Text => if v.Str? then [] else wrongType
    case TextLength(n, message) =>
      if !v.Str? then wrongType
      else if Strings.Utf16Length(v.s) < n then [Issue(path, TooSmall, message)]
      else if Strings.Utf16Length(v.s) > n then [Issue(path, TooBig, message)]
      else []
    case TextMin(n, message) =>
      if !v.Str? then wrongType
      else if Strings.Utf16Length(v.s) < n then [Issue(path, TooSmall, message)]
      else []
    case Email(message) =>
      if !v.Str? then wrongType
      else if LooksLikeEmail(v.s) then []
      else [Issue(path, InvalidString, message)]
    case OneOf(options) =>
      if !v.Str? then wrongType
      else if v.s in options then []
      else [Issue(path, InvalidEnumValue, "")]
    case Integer(min, max) =>
      if !v.Num? then wrongType
      else
        (if IsInteger(v.n) then [] else wrongType)
        + (if v.n < min as real then [Issue(path, TooSmall, "")] else [])
        + (if max.Some? && v.n > max.value as real then [Issue(path, TooBig, "")] else [])
    case NonNegative =>
      if !v.Num? then wrongType
      else if v.n < 0.0 then [Issue(path, TooSmall, "")]
      else []
    case Positive(message) =>
      if !v.Num? then wrongType
      else if v.n <= 0.0 then [Issue(path, TooSmall, message)]
      else []
  }

  /** The issues of one field of an object: missing, or what its check reports. */
  function OneFieldIssues(path: seq<string>, f: Field, o: Object): (issues: seq<Issue>)
    ensures forall i :: 0 <= i < |issues| ==> issues[i].path == path + [f.key]
  {
    if f.key !in o then (if f.optional then [] else [Issue(path + [f.key], InvalidType, RequiredMessage)])
    else CheckIssues(path + [f.key], f.check, o[f.key])
  }

  /** The issues of every field of an object, in declaration order, each under `path`. */
  function FieldIssues(path: seq<string>, fields: seq<Field>, o: Object): (issues: seq<Issue>)
    ensures forall i :: 0 <= i < |issues| ==> |issues[i].path| == |path| + 1 && issues[i].path[..|path|] == path
  {
    if fields == [] then []
    else OneFieldIssues(path, fields[0], o) + FieldIssues(path, fields[1..], o)
  }

  /** Every issue of every field is reported. */
  lemma {:induction false} FieldIssuesInclude(path: seq<string>, fields: seq<Field>, o: Object, k: nat)
    requires k < |fields|
    ensures forall x :: x in OneFieldIssues(path, fields[k], o) ==> x in FieldIssues(path, fields, o)
  {
    if k > 0 {
      FieldIssuesInclude(path, fields[1..], o, k - 1);
    }
  }

  predicate FieldOk(f: Field, o: Object) {
    if f.key in o then Admits(f.check, o[f.key]) else f.optional
  }

  /** No field issue at all exactly when every field is acceptable. */
  lemma {:induction false} FieldIssuesEmpty(path: seq<string>, fields: seq<Field>, o: Object)
    ensures FieldIssues(path, fields, o) == [] <==> forall i :: 0 <= i < |fields| ==> FieldOk(fields[i], o)
  {
    if fields != [] {
      FieldIssuesEmpty(path, fields[1..], o);
      assert forall i :: 1 <= i < |fields| ==> fields[i] == fields[1..][i - 1];
    }
  }

  function Keys(fields: seq<Field>): set<string> {
    set i | 0 <= i < |fields| :: fields[i].key
  }

  /** The parsed object: zod keeps the declared keys and strips every other one. */
  function Known(fields: seq<Field>, o: Object): (out: Object)
    ensures out.Keys == o.Keys * Keys(fields)
    ensures forall k :: k in out ==> out[k] == o[k]
  {
    map k | k in o && k in Keys(fields) :: o[k]
  }

  /** Parse one facet (`None` when it is undefined in the input). */
  function ParseShape(path: seq<string>, shape: Shape, v: Option<Value>): (r: Result<Object, seq<Issue>>)
    ensures r.Failure? ==> |r.error| >= 1
    ensures r.Success? ==> v.Some? && v.value.Obj? && r.value == Known(shape.fields, v.value.fields)
  {
    if v.None? then Failure([Issue(path, InvalidType, RequiredMessage)])
    else if !v.value.Obj? then Failure([Issue(path, InvalidType, "")])
    else
      var o := v.value.fields;
      var issues := FieldIssues(path, shape.fields, o);
      if issues != [] then Failure(issues)
      else
        var out := Known(shape.fields, o);
        if shape.nonEmpty.Some? && out.Keys == {} then Failure([Issue(path, Custom, shape.nonEmpty.value)])
        else Success(out)
  }

  /** What a shape accepts, stated directly. */
  predicate ShapeAccepts(shape: Shape, o: Object) {
    && (forall i :: 0 <= i < |shape.fields| ==> FieldOk(shape.fields[i], o))
    && (shape.nonEmpty.Some? ==> exists i :: 0 <= i < |shape.fields| && shape.fields[i].key in o)
  }

  lemma ParseShapeMeaning(path: seq<string>, shape: Shape, v: Option<Value>)
    ensures ParseShape(path, shape, v).Success? <==> v.Some? && v.value.Obj? && ShapeAccepts(shape, v.value.fields)
  {
    if v.Some? && v.value.Obj? {
      var o := v.value.fields;
      FieldIssuesEmpty(path, shape.fields, o);
      var out := Known(shape.fields, o);
      if exists i :: 0 <= i < |shape.fields| && shape.fields[i].key in o {
        var i :| 0 <= i < |shape.fields| && shape.fields[i].key in o;
        assert shape.fields[i].key in out;
      }
    }
  }

  /** `schema.safeParse(input)` */
  function SafeParse(schema: Schema, input: Object): (r: Result<Object, seq<Issue>>)
    ensures r.Success? ==> r.value.Keys == {schema.facet}
    ensures r.Success? ==>
      schema.facet in input && input[schema.facet].Obj? &&
      r.value[schema.facet] == Obj(Known(schema.shape.fields, input[schema.facet].fields))
    ensures r.Failure? ==> |r.error| >= 1
    ensures r.Failure? ==>
      forall i :: 0 <= i < |r.error| ==> |r.error[i].path| >= 1 && r.error[i].path[0] == schema.facet
  {
    match ParseShape([schema.facet], schema.shape, Get(input, schema.facet))
    case Success(out) => Success(map[schema.facet := Obj(out)])
    case Failure(issues) => Failure(issues)
  }

  /** Acceptance by a schema, stated directly. */
  lemma SafeParseMeaning(schema: Schema, input: Object)
    ensures SafeParse(schema, input).Success?
        <==> schema.facet in input && input[schema.facet].Obj? && ShapeAccepts(schema.shape, input[schema.facet].fields)
  {
    ParseShapeMeaning([schema.facet], schema.shape, Get(input, schema.facet));
  }
}
